=== FILE: README.md ===
# Film search over Sakila: a verified model

This is a terminal app for searching films in the Sakila catalog (MySQL) by
title keyword, or by genre id together with a year or a year range.

Each search:
- is validated;
- runs one SQL query;
- is logged once, with its number of results, to a MongoDB collection;
- lists its results ten rows to a page, asking "Show next 10? (y/n)" between pages.

Two statistics views read the log back through aggregation pipelines:
- the five most popular searches, grouped by (keyword, category id);
- the last five unique searches, keyed by keyword or category id.

A menu loop offers five options and stops on option 5 or on Ctrl-C.

The Dafny model restates this core as pure functions and short methods over
immutable data:

- `Base` holds `Option`, terminal input (`Line(text)` or `Interrupt` for
  Ctrl-C) and `Min`.
- `Text` holds Python's `str.strip()` with the exact `str.isspace` character
  set, `str.split` on one character, `int()` of decimal text, and `str()` of
  an integer.
- `Seqs` holds filtering, key lookup, insertion sort by a total preorder and
  taking a prefix.
- `Catalog` covers `keyword_find` and `genre_year_find`. Each is the filter
  of its WHERE clause followed by a sort under its ORDER BY. A failing
  database gives the empty list.
- `SearchLog` covers `log_a_search` as an append to an event list and both
  aggregation pipelines as functions of that list. An unreachable store
  drops writes and answers `[]`.
- `Formatter` covers `print_results` pagination and the row contents of the
  two statistics tables.
- `Interaction` covers:
  - validation and year parsing;
  - the search-then-log-then-list step;
  - one pass of the menu loop (`Step`) and a whole run over a stream of
    terminal input (`Run`).

  The world a run acts on holds:
  - the catalog;
  - the log store;
  - a logical clock that stands for `datetime.now()`;
  - a count of statistics lookups;
  - the set of calls that fail. Every catalog query, log write and statistics
    read opens its own connection, so each one can fail on its own.

Sorted results are specified up to ties:
- a result is a permutation of the matching rows;
- it is ordered under the ORDER BY or `$sort` keys;
- how equal keys come out is left open.

## Model

| member | source | states |
|---|---|---|
| Text.Trim | user_interaction.py:42 | The result is a contiguous piece of the input with only whitespace removed around it, and it neither starts nor ends with whitespace. |
| Text.TrimEmptyIffAllSpace | user_interaction.py:42-45 | A stripped field is empty exactly when the raw field was all whitespace. |
| Text.TrimOfTrimmed | user_interaction.py:42 | Text that neither starts nor ends with whitespace is left unchanged by stripping. |
| Text.TrimIdempotent | user_interaction.py:42 | Stripping a second time changes nothing. |
| Text.TrimKeeps | user_interaction.py:42 | Every non-whitespace character of the input survives stripping, at its position shifted by the leading whitespace. |
| Text.SplitCount | user_interaction.py:72 | Splitting on a separator gives one more part than the text has separators. |
| Text.SplitPartsFree | user_interaction.py:72 | No part of a split contains the separator. |
| Text.JoinSplit | user_interaction.py:72 | Rejoining the parts with the separator gives back the original text. |
| Text.SplitJoin | user_interaction.py:72 | Splitting a join of separator-free parts gives back exactly those parts. |
| Text.SplitWithoutSeparator | user_interaction.py:72 | Text without the separator splits into itself alone. |
| Text.SplitAround | user_interaction.py:72 | Text whose first separator follows a prefix `a` splits into `a` followed by the parts of what comes after. |
| Text.Split | user_interaction.py:72 | There is at least one part. There is exactly one part when the text has no separator. The first part is a separator-free prefix of the text, and when shorter than the text it is followed by the separator. |
| Text.NatToString | formatter.py:88 | `str()` of a count is a non-empty digit string with no leading zero that reads back as the count. |
| Text.IntToString | formatter.py:131-133 | `str()` of any integer is a numeral that denotes the integer. It starts with a minus exactly when the integer is negative, never with a plus, and its digits have no leading zero unless they are just "0". |
| Text.ParseInt | user_interaction.py:72-74 | `int()` accepts the text exactly when it is an optional sign and at most 4300 ASCII digits, with only `int()` whitespace around them. It then gives that numeral's signed value. Anything else, such as "1 2", blank text or a 4301-digit number, is refused. |
| Text.IntLiteralUnique | user_interaction.py:74 | In accepted text the numeral starts right after the leading whitespace and ends right before the trailing whitespace, so the text reads one way only. |
| Text.NonDigitRefused | user_interaction.py:73-77 | Text containing a character that is not `int()` whitespace, a sign or a digit is not an integer. |
| Text.ParseIntRoundTrip | formatter.py:128-133 | Every integer `str()` can print, at most 4300 digits, reads back through `int()` as itself. |
| Text.TooManyDigitsRefused | user_interaction.py:72-77 | A run of more than 4300 digits is refused by `int()`, whatever its value. |
| Text.DashFreeNotNegative | user_interaction.py:72-74 | Text without a minus sign that `int()` accepts reads as a number that is not negative. |
| Seqs.Filter | mysql_connector.py:22 | The kept rows are exactly the matching rows, each as often as in the input. |
| Seqs.Insert | mysql_connector.py:23 | Inserting into a sorted list keeps it sorted and adds exactly the one element. |
| Seqs.SortBy | mysql_connector.py:23 | The sort output is ordered under the preorder and is a permutation of its input. |
| Seqs.SortKeepsDistinctBy | log_stats.py:20 | Sorting groups whose keys are distinct keeps the keys distinct. |
| Seqs.Take | log_stats.py:21 | `$limit` keeps the first `n` elements unchanged, or all of them when there are fewer. |
| Seqs.FindKey | log_stats.py:47-48 | The lookup finds an entry with the key exactly when one exists. |
| Catalog.FilmOrderIsTotalPreorder | mysql_connector.py:23 | Release year descending, then title ascending, ranks any two rows and is transitive. |
| Catalog.FilmBefore | mysql_connector.py:23 | A newer release year comes first and an older one never does. Within one year the order is the title order. |
| Catalog.FilmTies | mysql_connector.py:23 | Two rows that each rank no later than the other have the same year and the same title. |
| Catalog.TitleMatches | mysql_connector.py:22 | `title LIKE %kw%` holds exactly when the title is some text, then the keyword, then some text. |
| Catalog.YearAccepted | mysql_connector.py:59 | In a forward range the year passes exactly when it lies between start and end. In a reversed range it passes exactly when it equals the start. |
| Catalog.GenreYearMatches | mysql_connector.py:58-59 | A row matches exactly when it has the category and its year passes the year clause. |
| Catalog.Select | mysql_connector.py:22-23 | A query answer holds each matching row exactly as often as the table does, nothing else, in ORDER BY order. |
| Catalog.KeywordFind | mysql_connector.py:6-35 | The keyword query returns the title matches, newest first; a failing database gives no rows. |
| Catalog.GenreYearFind | mysql_connector.py:38-72 | The genre/year query returns the category's rows that pass the year clause, newest first; a failing database gives no rows. |
| Catalog.KeywordResultMembership | mysql_connector.py:22-28 | A row is returned if and only if it is in the catalog and its title contains the keyword. |
| Catalog.ResultOrder | mysql_connector.py:60 | Earlier rows are never older, and rows of one year are in ascending title order. |
| Catalog.GenreYearResultMembership | mysql_connector.py:57-65 | A row is returned if and only if it has the category and its year lies in the range, or equals the start year when the range is reversed. |
| Catalog.ReversedRangeIsStartYear | mysql_connector.py:59 | A reversed range returns the same rows as the start year alone. |
| SearchLog.Append | log_writer.py:21-48 | A reachable store gains exactly the new event at the end; an unreachable one is unchanged. |
| SearchLog.Tally | log_stats.py:12-19 | The groups have distinct keys, each group's count is the number of events with its key, and every event's key has a group. |
| SearchLog.BumpKeepsTally | log_stats.py:17 | Counting one more event keeps the grouping exact. |
| SearchLog.MoreSearchedIsTotalPreorder | log_stats.py:20 | Sorting by count descending ranks any two groups and is transitive. |
| SearchLog.TopFivePopular | log_stats.py:5-31 | At most five distinct groups with exact counts, in non-increasing count order. Any search left out is searched no more often than the fifth. An unreachable store gives `[]`. |
| SearchLog.TopFiveIsReport | log_stats.py:10-22 | Grouping, sorting by count and taking five always gives such a report. |
| SearchLog.MorePopularRanksHigher | log_stats.py:20-21 | A search made more often than the group at rank `j` is listed above rank `j`. |
| SearchLog.Collapse | log_stats.py:37-53 | Every key among the events has exactly one entry, taken whole from its most recent event. |
| SearchLog.LatestSurvives | log_stats.py:49-52 | An entry remains the latest for its key when a new event is no more recent or has another key. |
| SearchLog.AbsorbKeepsCollapse | log_stats.py:47-53 | Folding in one more event keeps the one-latest-entry-per-key property. |
| SearchLog.NewerReplaces | log_stats.py:49-52 | A strictly newer event with an existing key replaces that key's entry. |
| SearchLog.OlderIgnored | log_stats.py:49-52 | An event no newer than its key's entry leaves the entries as they are. |
| SearchLog.NewKeyAdded | log_stats.py:47-48 | An event with an unseen key adds an entry for it. |
| SearchLog.MoreRecentIsTotalPreorder | log_stats.py:54 | Sorting by last search time descending ranks any two entries and is transitive. |
| SearchLog.UniqueKey | log_stats.py:38-46 | A keyword search is keyed by its keyword and every other search by its category id, the same fields the popularity grouping uses. |
| SearchLog.KeywordMeetsCategory | log_stats.py:38-46 | A keyword search for `k` and a genre search on category `k` share one recent-list key but form two popularity groups. |
| SearchLog.LastFiveUnique | log_stats.py:34-64 | At most five entries with distinct keys, each the latest event of its key, newest first. Any key left out was last searched no later than the fifth entry. An unreachable store gives `[]`. |
| SearchLog.LastFiveIsReport | log_stats.py:36-56 | Collapsing, sorting by time and taking five always gives such a report. |
| SearchLog.MoreRecentRanksHigher | log_stats.py:54-55 | A search more recent than the entry at rank `j` has its key listed above rank `j`. |
| SearchLog.SameKeyKeepsLatest | log_stats.py:37-53 | Two searches with one key show up as a single entry, the later one. |
| Formatter.PageExists | formatter.py:32 | Page `k` is shown when the results reach past row `10k`. |
| Formatter.PagesFrom | formatter.py:31-57 | The listing from page `k` shows consecutive pages. Every page but the last is followed by a "y". It ends at the last page, at the first other reply, at Ctrl-C or when input runs out. |
| Formatter.MoreIsListing | formatter.py:52-54 | A "y" after a page that is not the last leads to the listing from the next page. |
| Formatter.Paginate | formatter.py:7-57 | No results give only the "no films found" message; otherwise the listing starts at page 1 and reads no more replies than exist. |
| Formatter.PageShape | formatter.py:33 | Each page has one to ten rows; all pages but the last have ten, and the last has the remainder. |
| Formatter.PageAt | formatter.py:33-36 | Page `k` is numbered `k + 1` and holds one to ten rows, which are the results from row `10k` on, in order. |
| Formatter.WantsMore | formatter.py:53 | A reply asks for more exactly when it is a line that reads "y" after stripping and lower-casing. |
| Formatter.RowsFromPage | formatter.py:31-50 | The pages from page `d` on show exactly the results from row `10d` up to the last row shown. |
| Formatter.AlwaysYesShowsEverything | formatter.py:31-50 | Answering "y" each time shows every result in order, over the ceiling of n/10 pages, reading one reply fewer than pages. |
| Formatter.DeclineStopsAfterPage | formatter.py:52-57 | A first non-"y" reply after page `p` ends the listing after exactly `p` pages, reported as declined or interrupted. |
| Formatter.ListingIsPrefix | formatter.py:31-57 | Whatever the replies, the rows shown are a prefix of the results. |
| Formatter.TwentyThreeRows | formatter.py:31-50 | Twenty-three rows with "y" replies show pages of 10, 10 and 3 and read two replies. |
| Formatter.RenderPopular | formatter.py:60-90 | An empty list shows only "no searches yet"; otherwise there is one row per group, in order. |
| Formatter.PopularLabel | formatter.py:73-88 | The label names the field that was set, the keyword winning. "Unknown" with "N/A" appears exactly when neither is set. The count column reads back as the count. |
| Formatter.PopularRowOf | formatter.py:78-88 | The count column is a digit string that reads back as the group's count. A truthy keyword gives a keyword row with that keyword. Otherwise a truthy category id gives a genre row with that id. Otherwise the row is "Unknown" with "N/A". |
| Formatter.RenderRecent | formatter.py:93-142 | An empty list shows only "no recent searches"; otherwise there is one row per document, in order. |
| Formatter.RecentDefaults | formatter.py:107-138 | A missing time shows "N/A" and a missing count shows "0". A present count that `str()` can print reads back through `int()` as itself. |
| Formatter.YearText | formatter.py:128-133 | Equal years show as one year. A range shows a dash, and a range of non-negative or missing years splits at its dash into the two years as shown. |
| Formatter.RecentRowOf | formatter.py:107-140 | The time column is the formatted time or "N/A". A keyword document shows "Keyword Search" with its key. A genre/year document shows "Genre & Year Search" with its key and the year text of its parameters. Any other type is shown as stored, and a missing one as "N/A". A present count is shown as a numeral that denotes it; a missing one shows "0". |
| Interaction.ParseYearRange | user_interaction.py:70-77 | Without a dash the field is one integer N meaning N to N. With one dash it is accepted exactly when both parts are integers, and then it is those two integers. Two or more dashes are refused. |
| Interaction.ValidateKeyword | user_interaction.py:42-45 | A keyword is accepted, stripped, exactly when it is not all whitespace. Otherwise the empty-keyword error is given. |
| Interaction.ValidateGenreYear | user_interaction.py:63-77 | A blank genre id or year field gives the empty-field error. Otherwise an unreadable year gives the invalid-year error, and a readable one is accepted with the stripped genre id and the parsed range. |
| Interaction.ParseYearRangeAround | user_interaction.py:71-72 | `a-b` with dash-free `a` and `b` reads as `(int(a), int(b))`, or is refused if either is not an integer. |
| Interaction.ExtraDashRefused | user_interaction.py:71-77 | Year text with two dashes is refused, whatever surrounds them. |
| Interaction.LeadingDashRefused | user_interaction.py:71-77 | Year text starting with a dash is refused, because the empty part before the dash is not an integer. |
| Interaction.YearsNotNegative | user_interaction.py:70-77 | No year field reads as a negative start or end year, since every part handed to `int()` is free of `-`. |
| Interaction.LongYearRefused | user_interaction.py:70-77 | A year of more than 4300 digits is refused as invalid year input. |
| Interaction.StrayCharacterRefused | user_interaction.py:73-77 | A single-year field with a character that is not `int()` whitespace, a sign or a digit is refused. |
| Interaction.SeparatorBeforeDashRefused | user_interaction.py:71-77 | A U+001C to U+001F character just before the dash is refused: `strip()` would remove it but `int()` does not, so "2000\x1c-2010" is an invalid year. |
| Interaction.YearTextRoundTrip | formatter.py:128-133 | The year column of the recent view for years `str()` can print, typed back into the year field, gives the same range. It contains a dash exactly when start and end differ. |
| Interaction.LogEvent | log_writer.py:36-41 | The logged event carries the search's type, its result count and the current time. A keyword search's parameters are its keyword and nothing else. A genre/year search's parameters are its category id and both years, with no keyword. |
| Interaction.PopularRowOfLoggedSearch | formatter.py:78-88 | A logged search appears in the popular view as "Keyword Search" with its keyword or "Genre Search" with its genre id, never "Unknown". The count reads back. |
| Interaction.GenreGroupIgnoresYears | log_stats.py:13-16 | Genre searches for one genre id are counted together whatever their years, and never together with a keyword search. |
| Interaction.RecentRowOfLoggedSearch | formatter.py:109-138 | A logged search appears in the recent view with its formatted time, its kind, its keyword or genre id with years, and its count. |
| Interaction.KeywordAndGenreShareRecentKey | log_stats.py:38-48 | A keyword search for `x` followed by a genre search for genre id `x` leaves one recent entry, the genre search. |
| Interaction.LogsForAtMostOnce | log_writer.py:32-48 | Every search shown accounts for at most one log entry, and exactly one when no log write fails. |
| Interaction.SearchOutputs | user_interaction.py:47-51 | A search shows its listing, then one or two outputs. The error message follows exactly when input ran out at the page prompt. It counts as one search whose log entry, stamped with the current time, is written unless that write fails. |
| Interaction.Search | user_interaction.py:47-49 | A validated search runs its query once against the catalog as this call finds it, and lists the result from the replies that follow. It reads exactly the replies the listing used. It appends one event with the row count at the current time unless this write fails, and the catalog is unchanged. |
| Interaction.KeywordAction | user_interaction.py:37-51 | Option 1 refuses a blank keyword with nothing logged. Otherwise it is exactly the search for the stripped keyword from the next input on. Ctrl-C at the prompt stops the program, showing only the stop message. Running out of input reports an error and returns to the menu. |
| Interaction.GenreYearAction | user_interaction.py:55-85 | Option 2 refuses blank fields or an unreadable year with nothing logged. Otherwise it is exactly the search for the stripped genre id and the parsed range. Ctrl-C at either prompt stops the program, showing only the stop message. Running out of input at either prompt reports an error. |
| Interaction.Step | user_interaction.py:92-129 | Options 1 and 2 are exactly the keyword and genre/year actions, reading from the next input. Options 3 and 4 show the statistics views of the store as that lookup finds it. Option 5 alone says goodbye and stops, and Ctrl-C stops. Anything else shows the invalid-option message. A pass logs exactly its searches. |
| Interaction.Loop | user_interaction.py:88-129 | A whole run accounts for all it shows: each search is logged at most once, in order, and the catalog is unchanged. It ends on option 5 (the last output being goodbye), on Ctrl-C, or only after reading all of the input. |
| Interaction.ExitAtMenu | user_interaction.py:118-120 | Option 5 at the menu ends the run after one input, showing only goodbye and changing nothing. |
| Interaction.KeywordFiveIsNotExit | user_interaction.py:42-49 | A "5" typed at the keyword prompt is searched for as a keyword, and the run goes on until the input ends. |
| Interaction.LoopLogsAtMostOnce | log_writer.py:32-48 | Over a whole run the log grows by at most one entry per search, and by exactly one per search when no write fails. |
| Interaction.Run | user_interaction.py:92-129 | The `while True` loop, each pass reading where the last one stopped, makes exactly the run `Loop` describes, with the same guarantees. |

## Left out

- Colours, table borders, column headers and emoji are not modelled: the `search_type` column selection in `print_results` and every `console.print` styling. A page is modelled as its number and its rows.
- Console messages that carry no data are not outputs: the catalog's error prints (mysql_connector.py:31, :34, :68, :71), the statistics' error prints (log_stats.py:30, :63), "Search log saved to MongoDB" (log_writer.py:45) and "Error while saving log" (log_writer.py:48). So a failed catalog query shows like a search with no films, and a failed statistics read like an empty log.
- Formatter.WantsMore: `.lower()` is modelled on ASCII letters only (`Text.AsciiLower`). This covers the replies that can read "y", but it does not lower-case other scripts.
- `display_genres` is not modelled. It only prints the category list before the genre prompt and swallows its own errors.
- The config modules and the MongoDB connection helper are not part of this model. A failure of one call (mysql_connector.py:26 and :63, log_writer.py:33, log_stats.py:25 and :58) is chosen in advance in the world's outages. A query is keyed by its search's clock value and a statistics read by its lookup number. A failed query gives `[]`, a failed write is dropped, and a failed read answers `[]`.
- SQL collation is not modelled. Titles compare code point by code point, and `LIKE '%kw%'` is a case-sensitive literal substring test whose `%` and `_` inside the keyword are not treated as wildcards.
- The genre id is compared as a string. MySQL's numeric coercion of `category_id` (so `"01"` matching category 1) is not modelled.
- Rows whose category is NULL through the LEFT JOINs never match a genre id. A keyword search is modelled over joined rows as given.
- MySQL's and MongoDB's order among equal sort keys is not fixed. Catalog.Select, SearchLog.TopFivePopular and SearchLog.LastFiveUnique are specified up to ties, and the insertion sort inside them is one admissible order.
- Text.ParseInt: Python's `int()` also accepts underscores between digits and non-ASCII decimal digits. The model accepts ASCII digits with an optional sign, surrounded by the whitespace `int()` skips. The 4300-digit limit is CPython's default; changing it through `PYTHONINTMAXSTRDIGITS` or `sys.set_int_max_str_digits` is not modelled.
- Text.IntToString: `str()` of an integer of more than 4300 digits raises `ValueError` in CPython, and the model does not represent that exception. Text.ParseIntRoundTrip, Formatter.RecentDefaults and Interaction.YearTextRoundTrip promise the round trip only up to that limit. Every year a user can enter is within it.
- Timestamps are integers on one logical clock advanced once per search, whether or not its log write fails. `strftime` and Python's `str()` of a parameter dictionary are parameters of the renderer (`Display`). The non-`datetime` timestamp branch of the recent view is not modelled.
- `sys.exit()` after Ctrl-C is the `StoppedByInterrupt` termination. A run that reaches the end of its input at the menu prompt ends with `InputExhausted`, where the program would print "Unexpected error" in a loop.
- Interaction.Step: the generic `except Exception` handlers are modelled only for the end of input (`EOFError`). Driver-level exceptions inside the statistics views are already turned into `[]` by the pipelines.

=== FILE: base.dfy ===
/** Small shared vocabulary: optional values and what the terminal hands the program. */
module Base {

  /** A value that may be absent: a missing document field, a failed parse. */
  datatype Option<+T> = None | Some(value: T)

  /** One read from the terminal: a line of text, or the user pressing Ctrl-C
      (Python's KeyboardInterrupt) while the prompt waits. */
  datatype Input = Line(text: string) | Interrupt

  function Min(a: int, b: int): int
  {
    if a <= b then a else b
  }
}

=== FILE: catalog.dfy ===
/** The two film queries of the relational catalog, read as a filter and a
    sort over the rows of `film LEFT JOIN film_category LEFT JOIN category`.
    A query that fails (no connection, driver error, anything unexpected) is
    reported on the console and answered with no rows. */
module Catalog {
  import opened Base
  import opened Text
  import opened Seqs

  /** One joined row: a film together with one of its categories. */
  datatype Film = Film(
    filmId: int,
    title: string,
    releaseYear: int,
    categoryId: string,
    genre: string,
    rentalRate: int)

  /** The catalog as a query sees it: its joined rows, or a connection that fails. */
  datatype Database = Online(films: seq<Film>) | Failing

  /** `a` sorts at or before `b` in code-point lexicographic order. */
  predicate TitleLeq(a: string, b: string)
  {
    LeqFrom(a, b, 0)
  }

  /** `a` and `b` agree before position `i`; compare them from `i` on. */
  predicate LeqFrom(a: string, b: string, i: nat)
    decreases |a| - i
  {
    i >= |a| || (i < |b| && (a[i] < b[i] || (a[i] == b[i] && LeqFrom(a, b, i + 1))))
  }

  lemma {:induction false} LeqFromTotal(a: string, b: string, i: nat)
    ensures LeqFrom(a, b, i) || LeqFrom(b, a, i)
    decreases |a| - i
  {
    if i < |a| && i < |b| && a[i] == b[i] {
      LeqFromTotal(a, b, i + 1);
    }
  }

  lemma {:induction false} LeqFromTransitive(a: string, b: string, c: string, i: nat)
    requires LeqFrom(a, b, i) && LeqFrom(b, c, i)
    ensures LeqFrom(a, c, i)
    decreases |a| - i
  {
    if i < |a| && a[i] == b[i] && b[i] == c[i] {
      LeqFromTransitive(a, b, c, i + 1);
    }
  }

  /** Titles that agree before position `i` and each sort at or before the
      other from there on are the same title. */
  lemma {:induction false} LeqFromAntisymmetric(a: string, b: string, i: nat)
    requires i <= |a| && i <= |b| && a[..i] == b[..i]
    requires LeqFrom(a, b, i) && LeqFrom(b, a, i)
    ensures a == b
    decreases |a| - i
  {
    if i < |a| {
      assert a[..i + 1] == a[..i] + [a[i]] && b[..i + 1] == b[..i] + [b[i]];
      LeqFromAntisymmetric(a, b, i + 1);
    } else {
      assert a == a[..i] && b == b[..i];
    }
  }

  /** `ORDER BY film.release_year DESC, film.title`: a newer film comes first,
      and films of one year come in title order. */
  predicate FilmBefore(a: Film, b: Film)
    ensures a.releaseYear > b.releaseYear ==> FilmBefore(a, b)
    ensures a.releaseYear < b.releaseYear ==> !FilmBefore(a, b)
    ensures a.releaseYear == b.releaseYear ==> (FilmBefore(a, b) <==> TitleLeq(a.title, b.title))
  {
    a.releaseYear > b.releaseYear || (a.releaseYear == b.releaseYear && TitleLeq(a.title, b.title))
  }

  /** Two rows rank equal under the ORDER BY only when they have the same year
      and the same title: the only ties the query leaves open. */
  lemma FilmTies(a: Film, b: Film)
    requires FilmBefore(a, b) && FilmBefore(b, a)
    ensures a.releaseYear == b.releaseYear && a.title == b.title
  {
    LeqFromAntisymmetric(a.title, b.title, 0);
  }

  lemma FilmOrderIsTotalPreorder()
    ensures TotalPreorder(FilmBefore)
  {
    forall a: Film, b: Film ensures FilmBefore(a, b) || FilmBefore(b, a) {
      LeqFromTotal(a.title, b.title, 0);
    }
    forall a: Film, b: Film, c: Film | FilmBefore(a, b) && FilmBefore(b, c)
      ensures FilmBefore(a, c)
    {
      if a.releaseYear == b.releaseYear == c.releaseYear {
        LeqFromTransitive(a.title, b.title, c.title, 0);
      }
    }
  }

  /** `film.title LIKE '%keyword%'`, the keyword taken literally: the title is
      some text, then the keyword, then some more text. */
  predicate TitleMatches(keyword: string, f: Film)
    ensures TitleMatches(keyword, f) <==> exists a, b :: f.title == a + keyword + b
  {
    if Contains(f.title, keyword) then
      var i :| 0 <= i <= |f.title| - |keyword| && OccursAt(f.title, keyword, i);
      assert f.title == f.title[..i] + keyword + f.title[i + |keyword|..];
      true
    else
      assert forall a, b | f.title == a + keyword + b :: OccursAt(f.title, keyword, |a|) by {
        forall a, b | f.title == a + keyword + b ensures OccursAt(f.title, keyword, |a|) {
          assert f.title[|a|..|a| + |keyword|] == keyword;
        }
      }
      false
  }

  /** `film.release_year BETWEEN start AND end OR film.release_year = start`:
      the years from `start` to `end`, or `start` alone when the range is
      reversed. */
  predicate YearAccepted(year: int, start: int, end: int)
    ensures start <= end ==> (YearAccepted(year, start, end) <==> start <= year <= end)
    ensures start > end ==> (YearAccepted(year, start, end) <==> year == start)
  {
    (start <= year && year <= end) || year == start
  }

  /** The whole WHERE clause of the genre/year query: the genre id, and the
      year range read as `YearAccepted` reads it. */
  predicate GenreYearMatches(categoryId: string, start: int, end: int, f: Film)
    ensures GenreYearMatches(categoryId, start, end, f) <==>
      f.categoryId == categoryId && (if start <= end then start <= f.releaseYear <= end else f.releaseYear == start)
  {
    f.categoryId == categoryId && YearAccepted(f.releaseYear, start, end)
  }

  /** `rows` is what a query with WHERE clause `where` may return from `source`:
      every matching row exactly as often as it occurs, nothing else, in
      ORDER BY order (rows that tie on year and title in either order). */
  ghost predicate Answers(rows: seq<Film>, source: seq<Film>, where: Film -> bool)
  {
    && (forall f :: multiset(rows)[f] == if where(f) then multiset(source)[f] else 0)
    && SortedBy(rows, FilmBefore)
  }

  /** The ordered selection of `source` under `where`. */
  function Select(source: seq<Film>, where: Film -> bool): (rows: seq<Film>)
    ensures Answers(rows, source, where)
  {
    FilmOrderIsTotalPreorder();
    SortBy(Filter(source, where), FilmBefore)
  }

  /** `keyword_find`: films whose title contains the keyword, newest first;
      no rows at all when the database fails. */
  function KeywordFind(db: Database, keyword: string): (rows: seq<Film>)
    ensures db.Failing? ==> rows == []
    ensures db.Online? ==> Answers(rows, db.films, f => TitleMatches(keyword, f))
  {
    match db
    case Failing => []
    case Online(films) => Select(films, f => TitleMatches(keyword, f))
  }

  /** `genre_year_find`: films of the requested category whose year passes the
      year clause, newest first; no rows at all when the database fails. */
  function GenreYearFind(db: Database, categoryId: string, start: int, end: int): (rows: seq<Film>)
    ensures db.Failing? ==> rows == []
    ensures db.Online? ==> Answers(rows, db.films, f => GenreYearMatches(categoryId, start, end, f))
  {
    match db
    case Failing => []
    case Online(films) => Select(films, f => GenreYearMatches(categoryId, start, end, f))
  }

  /** A keyword result is exactly the matching rows: each returned row has the
      keyword in its title, and each catalog row with the keyword in its title
      is returned. */
  lemma KeywordResultMembership(db: Database, keyword: string, f: Film)
    requires db.Online?
    ensures f in KeywordFind(db, keyword) <==> f in db.films && Contains(f.title, keyword)
  {
    var rows := KeywordFind(db, keyword);
    assert f in rows <==> multiset(rows)[f] > 0;
    assert f in db.films <==> multiset(db.films)[f] > 0;
  }

  /** Both queries list newer films first and, within one year, titles in
      ascending order. */
  lemma ResultOrder(rows: seq<Film>, source: seq<Film>, where: Film -> bool, i: int, j: int)
    requires Answers(rows, source, where)
    requires 0 <= i < j < |rows|
    ensures rows[i].releaseYear >= rows[j].releaseYear
    ensures rows[i].releaseYear == rows[j].releaseYear ==> TitleLeq(rows[i].title, rows[j].title)
  {
    assert FilmBefore(rows[i], rows[j]);
  }

  /** The year clause in plain terms: an ordinary range when start <= end, and
      the single year `start` when the range is reversed. */
  lemma GenreYearResultMembership(db: Database, categoryId: string, start: int, end: int, f: Film)
    requires db.Online?
    ensures f in GenreYearFind(db, categoryId, start, end) <==>
      && f in db.films
      && f.categoryId == categoryId
      && (if start <= end then start <= f.releaseYear <= end else f.releaseYear == start)
  {
    var rows := GenreYearFind(db, categoryId, start, end);
    assert f in rows <==> multiset(rows)[f] > 0;
    assert f in db.films <==> multiset(db.films)[f] > 0;
  }

  /** A reversed range returns exactly what the single year `start` returns,
      row for row. */
  lemma ReversedRangeIsStartYear(db: Database, categoryId: string, start: int, end: int)
    requires start > end
    ensures GenreYearFind(db, categoryId, start, end) == GenreYearFind(db, categoryId, start, start)
  {
    if db.Online? {
      FilterCongruent(db.films,
        f => GenreYearMatches(categoryId, start, end, f),
        f => GenreYearMatches(categoryId, start, start, f));
    }
  }
}

=== FILE: formatter.dfy ===
/** The presenter: search results shown ten rows to a page with a prompt
    between pages, and the two statistics views turned into labelled rows.
    A page is a sequence of rows and a label is a string; colours, borders and
    column layout are not modelled. */
module Formatter {
  import opened Base
  import opened Text
  import opened SearchLog

  // ---------------------------------------------------------------------
  // Paginated results
  // ---------------------------------------------------------------------

  const PageSize: nat := 10

  /** One printed table: its "Page N" number and its rows. */
  datatype Page<R> = Page(number: nat, rows: seq<R>)

  /** Why the listing stopped: all pages shown, a reply other than "y", Ctrl-C
      at the prompt, or no more input to read (an `EOFError`, which the calling
      action reports). */
  datatype Ending = EndOfResults | Declined | Interrupted | InputClosed

  /** What `print_results` shows: a "no films found" message, or the pages it
      printed, how many prompt replies it consumed and why it stopped. */
  datatype Listing<R> = NoFilmsFound | Paged(pages: seq<Page<R>>, answersRead: nat, ending: Ending)

  /** Pages needed for `n` rows: the ceiling of n / 10. */
  function PageCount(n: nat): nat
  {
    (n + PageSize - 1) / PageSize
  }

  /** Page `k` (counting from 0): rows 10k up to but excluding min(10k + 10, n),
      numbered k + 1. */
  function PageAt<R>(results: seq<R>, k: nat): (p: Page<R>)
    requires k < PageCount(|results|)
    ensures p.number == k + 1 && 1 <= |p.rows| <= PageSize
    ensures k * PageSize + |p.rows| <= |results|
    ensures forall i | 0 <= i < |p.rows| :: p.rows[i] == results[k * PageSize + i]
  {
    PageExists(k, |results|);
    Page(k + 1, results[k * PageSize..Min(k * PageSize + PageSize, |results|)])
  }

  /** A reply to "Show next 10? (y/n)" that asks for more: after `.strip().lower()`
      it reads "y", which is the case for "y" and "Y" only. */
  predicate WantsMore(answer: Input)
    ensures WantsMore(answer) <==> answer.Line? && AsciiLower(Trim(answer.text)) == "y"
  {
    if answer.Line? then
      var t := Trim(answer.text);
      if AsciiLower(t) == "y" then
        assert |t| == 1 && t == [t[0]];
        t == "y" || t == "Y"
      else
        assert AsciiLower("y") == "y" && AsciiLower("Y") == "y";
        t == "y" || t == "Y"
    else false
  }

  /** `l` is the listing that starts at page `first` of `results` with the
      replies `answers` still unread: consecutive pages from `first`, every page
      but the last followed by a reply asking for more, and the listing ends
      with the results, or with the first reply that does not ask for more, or
      where the replies run out. */
  ghost predicate ListingFrom<R>(results: seq<R>, first: nat, answers: seq<Input>, l: Listing<R>)
  {
    && l.Paged?
    && 1 <= |l.pages|
    && l.answersRead <= |answers|
    && first + |l.pages| <= PageCount(|results|)
    && (forall k | 0 <= k < |l.pages| :: l.pages[k] == PageAt(results, first + k))
    && (forall k | 0 <= k < |l.pages| - 1 :: k < |answers| && WantsMore(answers[k]))
    && (l.ending == EndOfResults <==> first + |l.pages| == PageCount(|results|))
    && (l.ending == EndOfResults ==> l.answersRead == |l.pages| - 1)
    && (l.ending == Declined ==>
          && l.answersRead == |l.pages| <= |answers|
          && answers[|l.pages| - 1].Line? && !WantsMore(answers[|l.pages| - 1]))
    && (l.ending == Interrupted ==>
          l.answersRead == |l.pages| <= |answers| && answers[|l.pages| - 1] == Interrupt)
    && (l.ending == InputClosed ==> l.answersRead == |l.pages| - 1 == |answers|)
  }

  /** Page `k` exists exactly when it starts before the end of the results. */
  lemma PageExists(k: nat, n: nat)
    ensures k < PageCount(n) <==> k * PageSize < n
  {
  }

  /** The pagination loop from page `k` on, that is from row `index` = 10k:
      show the page, stop when `index + 10` reaches the end, otherwise prompt. */
  function PagesFrom<R>(results: seq<R>, k: nat, answers: seq<Input>): (l: Listing<R>)
    requires k < PageCount(|results|)
    ensures ListingFrom(results, k, answers, l)
    decreases |results| - k * PageSize
  {
    PageExists(k, |results|);
    PageExists(k + 1, |results|);
    var page := PageAt(results, k);
    if (k + 1) * PageSize >= |results| then
      Paged([page], 0, EndOfResults)
    else if |answers| == 0 then
      Paged([page], 0, InputClosed)
    else if answers[0].Interrupt? then
      Paged([page], 1, Interrupted)
    else if !WantsMore(answers[0]) then
      Paged([page], 1, Declined)
    else
      var rest := PagesFrom(results, k + 1, answers[1..]);
      MoreIsListing(results, k, answers, rest);
      Paged([page] + rest.pages, rest.answersRead + 1, rest.ending)
  }

  /** A "y" after page `k` followed by the listing from page k + 1 is the listing from page `k`. */
  lemma MoreIsListing<R>(results: seq<R>, k: nat, answers: seq<Input>, rest: Listing<R>)
    requires k < PageCount(|results|)
    requires |answers| > 0 && WantsMore(answers[0])
    requires ListingFrom(results, k + 1, answers[1..], rest)
    ensures ListingFrom(results, k, answers,
      Paged([PageAt(results, k)] + rest.pages, rest.answersRead + 1, rest.ending))
  {
    var l := Paged([PageAt(results, k)] + rest.pages, rest.answersRead + 1, rest.ending);
    var n := |l.pages|;
    forall j | 0 <= j < n ensures l.pages[j] == PageAt(results, k + j) {
      if j > 0 {
        assert l.pages[j] == rest.pages[j - 1];
      }
    }
    forall j | 0 <= j < n - 1 ensures j < |answers| && WantsMore(answers[j]) {
      if j > 0 {
        assert answers[j] == answers[1..][j - 1];
      }
    }
    if n - 1 < |answers| {
      assert answers[n - 1] == answers[1..][n - 2];
    }
  }

  /** `print_results`: nothing but a "no films found" message for an empty
      result, otherwise the paginated listing from the first page. */
  function Paginate<R>(results: seq<R>, answers: seq<Input>): (l: Listing<R>)
    ensures |results| == 0 ==> l == NoFilmsFound
    ensures |results| > 0 ==> ListingFrom(results, 0, answers, l)
    ensures l.Paged? ==> l.answersRead <= |answers|
  {
    if |results| == 0 then NoFilmsFound
    else
      PageExists(0, |results|);
      PagesFrom(results, 0, answers)
  }

  /** All rows of the pages, in page order. */
  function Rows<R>(pages: seq<Page<R>>): seq<R>
  {
    if |pages| == 0 then [] else pages[0].rows + Rows(pages[1..])
  }

  /** Where consecutive pages start and stop: the first of them is not empty,
      and the second starts where the first ends. */
  lemma PageBounds(n: nat, first: nat, count: nat)
    requires 1 <= count && first + count <= PageCount(n)
    ensures first * PageSize < Min(first * PageSize + PageSize, n)
    ensures Min(first * PageSize + PageSize, n) <= Min((first + count) * PageSize, n) <= n
    ensures (first + 1) * PageSize == first * PageSize + PageSize
  {
    PageExists(first, n);
  }

  /** The pages of a listing from page `d` on hold exactly the rows from 10d
      up to the end of its last page, in order. */
  lemma {:induction false} RowsFromPage<R>(results: seq<R>, pages: seq<Page<R>>, d: nat)
    requires d < |pages| <= PageCount(|results|)
    requires forall k | 0 <= k < |pages| :: pages[k] == PageAt(results, k)
    ensures Rows(pages[d..]) == results[d * PageSize..Min(|pages| * PageSize, |results|)]
    decreases |pages| - d
  {
    var lo := d * PageSize;
    var mid := Min(lo + PageSize, |results|);
    var hi := Min(|pages| * PageSize, |results|);
    PageBounds(|results|, d, |pages| - d);
    assert Rows(pages[d..]) == results[lo..mid] + Rows(pages[d + 1..]) by {
      assert pages[d..][0] == PageAt(results, d);
      assert pages[d..][1..] == pages[d + 1..];
    }
    if d + 1 < |pages| {
      PageExists(d + 1, |results|);
      assert mid == (d + 1) * PageSize;
      RowsFromPage(results, pages, d + 1);
      assert results[lo..hi] == results[lo..mid] + results[mid..hi];
    } else {
      assert hi == mid;
      assert pages[d + 1..] == [];
    }
  }

  /** Every page holds one to ten rows, and every page but the last of the
      results holds exactly ten. */
  lemma PageShape<R>(results: seq<R>, k: nat)
    requires k < PageCount(|results|)
    ensures 1 <= |PageAt(results, k).rows| <= PageSize
    ensures k + 1 < PageCount(|results|) ==> |PageAt(results, k).rows| == PageSize
    ensures k + 1 == PageCount(|results|) ==> |PageAt(results, k).rows| == |results| - k * PageSize
  {
  }

  /** A user who keeps answering "y" sees every page, ceil(n / 10) of them, and
      is prompted once fewer times than there are pages; the pages put back
      together are the results, nothing dropped, repeated or reordered. */
  lemma AlwaysYesShowsEverything<R>(results: seq<R>, answers: seq<Input>)
    requires |results| > 0
    requires |answers| >= PageCount(|results|) - 1
    requires forall i | 0 <= i < |answers| :: WantsMore(answers[i])
    ensures Paginate(results, answers).ending == EndOfResults
    ensures |Paginate(results, answers).pages| == PageCount(|results|)
    ensures Paginate(results, answers).answersRead == PageCount(|results|) - 1
    ensures Rows(Paginate(results, answers).pages) == results
  {
    var l := Paginate(results, answers);
    RowsFromPage(results, l.pages, 0);
    assert l.pages[0..] == l.pages;
    assert results[0..|results|] == results;
  }

  /** A reply other than "y" (or Ctrl-C) after page p, all earlier replies
      being "y", shows exactly p pages and reads exactly p replies. */
  lemma DeclineStopsAfterPage<R>(results: seq<R>, answers: seq<Input>, p: nat)
    requires 1 <= p < PageCount(|results|)
    requires p <= |answers|
    requires forall i | 0 <= i < p - 1 :: WantsMore(answers[i])
    requires !WantsMore(answers[p - 1])
    ensures |Paginate(results, answers).pages| == p
    ensures Paginate(results, answers).answersRead == p
    ensures Paginate(results, answers).ending == (if answers[p - 1].Interrupt? then Interrupted else Declined)
  {
    var l := Paginate(results, answers);
    assert |l.pages| <= p;
    assert l.ending != EndOfResults && l.ending != InputClosed;
  }

  /** Any listing shows a prefix of the results, in order, from the first row. */
  lemma ListingIsPrefix<R>(results: seq<R>, answers: seq<Input>)
    requires |results| > 0
    ensures Rows(Paginate(results, answers).pages) <= results
  {
    var l := Paginate(results, answers);
    RowsFromPage(results, l.pages, 0);
    assert l.pages[0..] == l.pages;
  }

  /** 23 rows read with "y" at every prompt: three pages of 10, 10 and 3 rows,
      after two prompts. */
  lemma TwentyThreeRows<R>(results: seq<R>, answers: seq<Input>)
    requires |results| == 23
    requires |answers| >= 2 && forall i | 0 <= i < |answers| :: WantsMore(answers[i])
    ensures
      var l := Paginate(results, answers);
      && |l.pages| == 3 && l.answersRead == 2 && l.ending == EndOfResults
      && |l.pages[0].rows| == 10 && |l.pages[1].rows| == 10 && |l.pages[2].rows| == 3
  {
    AlwaysYesShowsEverything(results, answers);
    var l := Paginate(results, answers);
    assert l.pages[2] == PageAt(results, 2);
    assert l.pages[1] == PageAt(results, 1);
    assert l.pages[0] == PageAt(results, 0);
  }

  // ---------------------------------------------------------------------
  // Top five popular searches
  // ---------------------------------------------------------------------

  /** Python truthiness of an optional string field: present and non-empty. */
  predicate Truthy(v: Option<string>)
  {
    v.Some? && v.value != ""
  }

  /** One row of the popular-searches table. */
  datatype PopularRow = PopularRow(searchType: string, details: string, timesSearched: string)

  datatype PopularView = NoSearchesYet | PopularTable(rows: seq<PopularRow>)

  /** The row for one group: a keyword wins over a category id, and a group
      with neither is "Unknown". The count column reads back as the count. */
  function PopularRowOf(g: Group): (r: PopularRow)
    ensures AllDigits(r.timesSearched) && DecimalValue(r.timesSearched) == g.count
    ensures Truthy(g.key.keyword) ==>
      r.searchType == "Keyword Search" && r.details == "Keyword: " + g.key.keyword.value
    ensures !Truthy(g.key.keyword) && Truthy(g.key.categoryId) ==>
      r.searchType == "Genre Search" && r.details == "Genre ID: " + g.key.categoryId.value
    ensures !Truthy(g.key.keyword) && !Truthy(g.key.categoryId) ==>
      r.searchType == "Unknown" && r.details == "N/A"
  {
    var times := NatToString(g.count);
    if Truthy(g.key.keyword) then
      PopularRow("Keyword Search", "Keyword: " + g.key.keyword.value, times)
    else if Truthy(g.key.categoryId) then
      PopularRow("Genre Search", "Genre ID: " + g.key.categoryId.value, times)
    else
      PopularRow("Unknown", "N/A", times)
  }

  /** `print_top5_most_popular_searches`: only a "no searches yet" message for
      an empty list, otherwise one row per group in the order given. */
  function RenderPopular(groups: seq<Group>): (v: PopularView)
    ensures |groups| == 0 <==> v == NoSearchesYet
    ensures v.PopularTable? ==> |v.rows| == |groups|
    ensures v.PopularTable? ==> forall i | 0 <= i < |groups| :: v.rows[i] == PopularRowOf(groups[i])
  {
    if |groups| == 0 then NoSearchesYet
    else PopularTable(seq(|groups|, i requires 0 <= i < |groups| => PopularRowOf(groups[i])))
  }

  /** The label of a popular-searches row tells which parameter field was set,
      with the keyword taking precedence, and the count column reads back as
      the group's count. */
  lemma PopularLabel(g: Group)
    ensures PopularRowOf(g).searchType == "Keyword Search" <==> Truthy(g.key.keyword)
    ensures PopularRowOf(g).searchType == "Genre Search" <==>
      !Truthy(g.key.keyword) && Truthy(g.key.categoryId)
    ensures PopularRowOf(g).searchType == "Unknown" <==>
      !Truthy(g.key.keyword) && !Truthy(g.key.categoryId)
    ensures PopularRowOf(g).details == "N/A" <==> PopularRowOf(g).searchType == "Unknown"
    ensures DecimalValue(PopularRowOf(g).timesSearched) == g.count
  {
    var r := PopularRowOf(g);
    if r.details == "N/A" {
      assert r.details[0] == 'N';
    }
  }

  // ---------------------------------------------------------------------
  // Last five unique searches
  // ---------------------------------------------------------------------

  /** One document of the recent-searches list as the renderer reads it: any
      field may be missing. */
  datatype RecentDoc = RecentDoc(
    id: Option<string>,
    lastSearchTime: Option<int>,
    searchType: Option<string>,
    searchParams: Option<Params>,
    resultsCount: Option<int>)

  /** The document the pipeline produces for one collapsed key. */
  function DocOf(l: Latest): RecentDoc
  {
    RecentDoc(l.key, Some(l.lastSearchTime), Some(l.searchType), Some(l.searchParams), Some(l.resultsCount))
  }

  /** One row of the recent-searches table. */
  datatype RecentRow = RecentRow(time: string, searchType: string, details: string, resultsFound: string)

  datatype RecentView = NoRecentSearches | RecentTable(rows: seq<RecentRow>)

  /** Python's `str()` of a missing key (`None`) or a present string. */
  function IdText(id: Option<string>): string
  {
    match id
    case None => "None"
    case Some(s) => s
  }

  /** A year field as shown: its digits, or "N/A" when it is missing. */
  function YearValueText(y: Option<int>): string
  {
    match y
    case None => "N/A"
    case Some(n) => IntToString(n)
  }

  /** A year field that shows without a dash: missing, or not negative. */
  predicate DashFreeYear(y: Option<int>)
  {
    y.None? || y.value >= 0
  }

  /** The year column of a genre search: one year when start equals end,
      "start-end" otherwise. A range of dash-free years splits at its dash back
      into the two year fields as shown. */
  function YearText(start: Option<int>, end: Option<int>): (r: string)
    ensures start == end ==> r == YearValueText(start)
    ensures start != end ==> '-' in r
    ensures start != end && DashFreeYear(start) && DashFreeYear(end) ==>
      Split(r, '-') == [YearValueText(start), YearValueText(end)]
  {
    if start == end then YearValueText(start)
    else
      var a := YearValueText(start);
      var b := YearValueText(end);
      assert (a + "-" + b)[|a|] == '-';
      if DashFreeYear(start) && DashFreeYear(end) then
        YearValueHasNoDash(start);
        YearValueHasNoDash(end);
        SplitAround(a, b, '-');
        SplitWithoutSeparator(b, '-');
        assert a + "-" + b == a + ['-'] + b;
        a + "-" + b
      else
        a + "-" + b
  }

  /** A dash-free year field shows no dash. */
  lemma YearValueHasNoDash(y: Option<int>)
    requires DashFreeYear(y)
    ensures '-' !in YearValueText(y)
  {
    if y.Some? {
      NatToStringHasNoDash(y.value);
    } else {
      assert forall k | 0 <= k < 3 :: "N/A"[k] != '-';
    }
  }

  /** The row for one document. `formatTime` stands for `strftime("%Y-%m-%d %H:%M:%S")`
      and `showParams` for Python's `str()` of the parameters dictionary. */
  function RecentRowOf(d: RecentDoc, formatTime: int -> string, showParams: Params -> string): (r: RecentRow)
    ensures r.time == match d.lastSearchTime case Some(t) => formatTime(t) case None => "N/A"
    ensures d.searchType == Some("keyword") ==>
      r.searchType == "Keyword Search" && r.details == "Keyword: " + IdText(d.id)
    ensures d.searchType == Some("genre_year") ==>
      && r.searchType == "Genre & Year Search"
      && r.details == "Genre ID: " + IdText(d.id) + ", Year: " +
           (match d.searchParams
            case Some(p) => YearText(p.yearStart, p.yearEnd)
            case None => "N/A")
    ensures d.searchType.None? ==> r.searchType == "N/A"
    ensures d.searchType.Some? && d.searchType.value != "keyword" && d.searchType.value != "genre_year" ==>
      r.searchType == d.searchType.value
    ensures d.resultsCount.Some? ==>
      IsNumeral(r.resultsFound) && NumeralValue(r.resultsFound) == d.resultsCount.value
    ensures d.resultsCount.None? ==> r.resultsFound == "0"
  {
    var time := (match d.lastSearchTime case Some(t) => formatTime(t) case None => "N/A");
    var raw := (match d.searchType case Some(t) => t case None => "N/A");
    var kind :=
      if raw == "keyword" then "Keyword Search"
      else if raw == "genre_year" then "Genre & Year Search"
      else raw;
    var details :=
      if raw == "keyword" then
        "Keyword: " + IdText(d.id)
      else if raw == "genre_year" then
        var start := if d.searchParams.Some? then d.searchParams.value.yearStart else None;
        var end := if d.searchParams.Some? then d.searchParams.value.yearEnd else None;
        "Genre ID: " + IdText(d.id) + ", Year: " + YearText(start, end)
      else
        (match d.searchParams case Some(p) => showParams(p) case None => "{}");
    var found := (match d.resultsCount case Some(c) => IntToString(c) case None => "0");
    RecentRow(time, kind, details, found)
  }

  /** `print_last_5_unique_searches`: only a "no recent searches" message for an
      empty list, otherwise one row per document in the order given. */
  function RenderRecent(docs: seq<RecentDoc>, formatTime: int -> string, showParams: Params -> string): (v: RecentView)
    ensures |docs| == 0 <==> v == NoRecentSearches
    ensures v.RecentTable? ==> |v.rows| == |docs|
    ensures v.RecentTable? ==>
      forall i | 0 <= i < |docs| :: v.rows[i] == RecentRowOf(docs[i], formatTime, showParams)
  {
    if |docs| == 0 then NoRecentSearches
    else RecentTable(seq(|docs|, i requires 0 <= i < |docs| => RecentRowOf(docs[i], formatTime, showParams)))
  }

  /** Missing fields fall back as the renderer promises: no time shows "N/A",
      no result count shows "0", and a present count that `str()` can print
      reads back through `int()` as itself. */
  lemma RecentDefaults(d: RecentDoc, formatTime: int -> string, showParams: Params -> string)
    ensures d.lastSearchTime.None? ==> RecentRowOf(d, formatTime, showParams).time == "N/A"
    ensures d.resultsCount.None? ==> RecentRowOf(d, formatTime, showParams).resultsFound == "0"
    ensures d.resultsCount.Some? && |NatToString(Abs(d.resultsCount.value))| <= MaxStrDigits ==>
      ParseInt(RecentRowOf(d, formatTime, showParams).resultsFound) == d.resultsCount
  {
    if d.resultsCount.Some? && |NatToString(Abs(d.resultsCount.value))| <= MaxStrDigits {
      ParseIntRoundTrip(d.resultsCount.value);
    }
  }
}

=== FILE: interaction.dfy ===
/** The interaction loop: menu choices and field values read from the terminal,
    validated, turned into a catalog search that is logged and listed, or into
    one of the two statistics views. The world the loop acts on is the catalog,
    the log store and the clock that stamps log entries. */
module Interaction {
  import opened Base
  import opened Text
  import opened Seqs
  import opened Catalog
  import opened SearchLog
  import opened Formatter

  // ---------------------------------------------------------------------
  // Validation
  // ---------------------------------------------------------------------

  /** A search that passed validation. */
  datatype Query =
    | KeywordQuery(keyword: string)
    | GenreYearQuery(categoryId: string, yearStart: int, yearEnd: int)

  /** Why an action was refused before any search: an empty keyword, an empty
      genre id or year field, or year text that is not `N` or `A-B`. */
  datatype InputError = EmptyKeyword | EmptyGenreOrYear | InvalidYear

  datatype Validation = Accepted(query: Query) | Rejected(error: InputError)

  /** What validation guarantees of every accepted query: the text field that
      names the search (keyword or genre id) is not empty. */
  predicate Validated(q: Query)
  {
    match q
    case KeywordQuery(k) => k != ""
    case GenreYearQuery(c, _, _) => c != ""
  }

  /** The year field: a single integer `N` meaning N to N, or two integers
      around one `-`. Anything else is refused, a reversed range is not. */
  function ParseYearRange(text: string): (r: Option<(int, int)>)
    ensures '-' !in text ==> (r.Some? <==> ParseInt(text).Some?)
    ensures '-' !in text && r.Some? ==> r.value.0 == r.value.1 == ParseInt(text).value
    ensures multiset(text)['-'] >= 2 ==> r == None
    ensures r.Some? && '-' in text ==>
      var parts := Split(text, '-');
      |parts| == 2 && ParseInt(parts[0]) == Some(r.value.0) && ParseInt(parts[1]) == Some(r.value.1)
    ensures var parts := Split(text, '-');
      |parts| == 2 ==> (r.Some? <==> ParseInt(parts[0]).Some? && ParseInt(parts[1]).Some?)
  {
    SplitCount(text, '-');
    if '-' in text then
      var parts := Split(text, '-');
      if |parts| != 2 then None
      else
        match (ParseInt(parts[0]), ParseInt(parts[1]))
        case (Some(a), Some(b)) => Some((a, b))
        case _ => None
    else
      match ParseInt(text)
      case Some(y) => Some((y, y))
      case None => None
  }

  /** `handle_search_by_keyword` up to the search: the keyword is stripped and
      must not be empty. */
  function ValidateKeyword(raw: string): (v: Validation)
    ensures v.Accepted? <==> !AllSpace(raw)
    ensures v.Accepted? ==> v.query == KeywordQuery(Trim(raw)) && Trim(v.query.keyword) == v.query.keyword
    ensures v.Rejected? ==> v.error == EmptyKeyword
    ensures v.Accepted? ==> Validated(v.query)
  {
    TrimEmptyIffAllSpace(raw);
    TrimIdempotent(raw);
    var keyword := Trim(raw);
    if keyword == "" then Rejected(EmptyKeyword) else Accepted(KeywordQuery(keyword))
  }

  /** `handle_search_by_genre_and_year` up to the search: both fields are
      stripped and must not be empty, then the year field must parse. */
  function ValidateGenreYear(rawGenre: string, rawYear: string): (v: Validation)
    ensures AllSpace(rawGenre) || AllSpace(rawYear) ==> v == Rejected(EmptyGenreOrYear)
    ensures !AllSpace(rawGenre) && !AllSpace(rawYear) ==>
      match ParseYearRange(Trim(rawYear))
      case None => v == Rejected(InvalidYear)
      case Some(range) => v == Accepted(GenreYearQuery(Trim(rawGenre), range.0, range.1))
    ensures v.Accepted? ==> Validated(v.query)
  {
    TrimEmptyIffAllSpace(rawGenre);
    TrimEmptyIffAllSpace(rawYear);
    var categoryId := Trim(rawGenre);
    var yearText := Trim(rawYear);
    if categoryId == "" || yearText == "" then Rejected(EmptyGenreOrYear)
    else
      match ParseYearRange(yearText)
      case None => Rejected(InvalidYear)
      case Some((start, end)) => Accepted(GenreYearQuery(categoryId, start, end))
  }

  /** Year text with exactly one dash is read as the two integers around it. */
  lemma ParseYearRangeAround(a: string, b: string)
    requires '-' !in a && '-' !in b
    ensures ParseYearRange(a + "-" + b) ==
      match (ParseInt(a), ParseInt(b))
      case (Some(x), Some(y)) => Some((x, y))
      case _ => None
  {
    SplitAround(a, b, '-');
    SplitWithoutSeparator(b, '-');
    assert (a + "-" + b)[|a|] == '-';
  }

  /** Year text with two or more dashes is refused, whatever surrounds them. */
  lemma ExtraDashRefused(a: string, b: string, c: string)
    ensures ParseYearRange(a + "-" + b + "-" + c) == None
  {
    var t := a + "-" + b + "-" + c;
    assert multiset(t) == multiset(a) + multiset("-") + multiset(b) + multiset("-") + multiset(c);
  }

  /** Text that starts with a dash leaves an empty first part, which is not an
      integer: a negative single year is refused. */
  lemma LeadingDashRefused(b: string)
    ensures ParseYearRange("-" + b) == None
  {
    SplitAround("", b, '-');
    assert "" + ['-'] + b == "-" + b;
    assert ParseInt("") == None by {
      forall i, j | 0 <= i <= j <= 0 ensures !IntLiteralAt("", i, j) {
        assert ""[i..j] == "";
      }
    }
  }

  /** No year field reads as a negative year: every part handed to `int()`
      is free of `-`. */
  lemma YearsNotNegative(text: string)
    ensures ParseYearRange(text).Some? ==>
      ParseYearRange(text).value.0 >= 0 && ParseYearRange(text).value.1 >= 0
  {
    if ParseYearRange(text).Some? {
      if '-' in text {
        var parts := Split(text, '-');
        SplitPartsFree(text, '-');
        DashFreeNotNegative(parts[0]);
        DashFreeNotNegative(parts[1]);
      } else {
        DashFreeNotNegative(text);
      }
    }
  }

  /** A year of more than `MaxStrDigits` digits is refused like any other
      invalid year text. */
  lemma LongYearRefused(text: string)
    requires AllDigits(text) && |text| > MaxStrDigits
    ensures ParseYearRange(text) == None
  {
    TooManyDigitsRefused(text);
    forall k | 0 <= k < |text| ensures text[k] != '-' {
      assert IsDigit(text[k]);
    }
  }

  /** A character that is neither `int()` whitespace, a sign nor a digit
      anywhere in single-year text (a letter among the digits, say) makes it
      invalid. */
  lemma StrayCharacterRefused(a: string, b: string, c: char)
    requires !IsDigit(c) && !IsIntSpace(c) && c != '+' && c != '-'
    requires '-' !in a && '-' !in b
    ensures ParseYearRange(a + [c] + b) == None
  {
    NonDigitRefused(a, b, c);
    assert '-' !in a + [c] + b;
  }

  /** The field is stripped as a whole, but each side of the dash goes to
      `int()` as it is: an information separator (U+001C to U+001F) next to
      the dash survives `strip()` and makes the range invalid. */
  lemma SeparatorBeforeDashRefused(c: char)
    requires 0x1C <= c as int <= 0x1F
    ensures ParseYearRange("2000" + [c] + "-2010") == None
  {
    NonDigitRefused("2000", "", c);
    assert "2000" + [c] + "" == "2000" + [c];
    assert "2000" + [c] + "-2010" == ("2000" + [c]) + "-" + "2010";
    ParseYearRangeAround("2000" + [c], "2010");
  }

  /** The year column of the recent-searches view can be typed back into the
      year field: it parses to the same start and end, and it is a single year
      exactly when start equals end. */
  lemma YearTextRoundTrip(start: nat, end: nat)
    requires |NatToString(start)| <= MaxStrDigits && |NatToString(end)| <= MaxStrDigits
    ensures ParseYearRange(YearText(Some(start), Some(end))) == Some((start, end))
    ensures '-' in YearText(Some(start), Some(end)) <==> start != end
  {
    var a := NatToString(start);
    var b := NatToString(end);
    assert IntToString(start) == a && IntToString(end) == b;
    NatToStringHasNoDash(start);
    NatToStringHasNoDash(end);
    ParseIntRoundTrip(start);
    ParseIntRoundTrip(end);
    if start != end {
      ParseYearRangeAround(a, b);
      assert (a + "-" + b)[|a|] == '-';
    }
  }

  // ---------------------------------------------------------------------
  // Searching and logging
  // ---------------------------------------------------------------------

  /** Which calls to the two databases fail. Every catalog query, log write
      and statistics read opens a connection of its own, so each can fail on
      its own: the query and the log write of the search stamped `t` fail when
      `t` is in `queryDown` or in `writeDown`, and the statistics read numbered
      `n` fails when `n` is in `readDown`. */
  datatype Outages = Outages(queryDown: set<int>, writeDown: set<int>, readDown: set<nat>)

  /** What the loop acts on: the catalog's joined rows, the logged events, the
      clock `datetime.now()` reads when a search is logged, how many
      statistics lookups have been made, and which calls fail. */
  datatype World = World(films: seq<Film>, events: seq<Event>, clock: int, lookups: nat, outages: Outages)

  /** The catalog as the next search's query finds it. */
  function QueryDatabase(w: World): Database
  {
    if w.clock in w.outages.queryDown then Failing else Online(w.films)
  }

  /** The log store as the next search's write finds it. */
  function WriteStore(w: World): LogStore
  {
    LogStore(w.events, w.clock !in w.outages.writeDown)
  }

  /** The log store as the next statistics view finds it. */
  function ReadStore(w: World): LogStore
  {
    LogStore(w.events, w.lookups !in w.outages.readDown)
  }

  /** The catalog query a validated search runs. */
  function RunQuery(db: Database, q: Query): seq<Film>
  {
    match q
    case KeywordQuery(k) => KeywordFind(db, k)
    case GenreYearQuery(c, s, e) => GenreYearFind(db, c, s, e)
  }

  /** The log entry written for a search: its type, the validated inputs as
      parameters, and the number of rows found. */
  function LogEvent(q: Query, count: nat, time: int): (e: Event)
    ensures e.resultsCount == count && e.timestamp == time
    ensures q.KeywordQuery? ==> e.searchType == "keyword" && e.params == Params(Some(q.keyword), None, None, None)
    ensures q.GenreYearQuery? ==>
      && e.searchType == "genre_year"
      && e.params == Params(None, Some(q.categoryId), Some(q.yearStart), Some(q.yearEnd))
  {
    match q
    case KeywordQuery(k) => Event(time, "keyword", Params(Some(k), None, None, None), count)
    case GenreYearQuery(c, s, e) => Event(time, "genre_year", Params(None, Some(c), Some(s), Some(e)), count)
  }

  // ---------------------------------------------------------------------
  // Logged searches as the statistics views show them
  // ---------------------------------------------------------------------

  /** A validated search is counted in the popular-searches view under the
      label of its kind: the keyword for a keyword search, the genre id for a
      genre search, never "Unknown". */
  lemma PopularRowOfLoggedSearch(q: Query, count: nat, time: int, n: nat)
    requires Validated(q)
    ensures var row := PopularRowOf(Group(KeyOf(LogEvent(q, count, time)), n));
      && DecimalValue(row.timesSearched) == n
      && (q.KeywordQuery? ==> row.searchType == "Keyword Search" && row.details == "Keyword: " + q.keyword)
      && (q.GenreYearQuery? ==> row.searchType == "Genre Search" && row.details == "Genre ID: " + q.categoryId)
  {
    PopularLabel(Group(KeyOf(LogEvent(q, count, time)), n));
  }

  /** The popularity grouping ignores the year range: genre searches for one
      genre id are counted together whatever years they asked for, and never
      together with a keyword search. */
  lemma GenreGroupIgnoresYears(c: string, s1: int, e1: int, s2: int, e2: int, k: string, n1: nat, n2: nat, t1: int, t2: int)
    ensures KeyOf(LogEvent(GenreYearQuery(c, s1, e1), n1, t1)) == KeyOf(LogEvent(GenreYearQuery(c, s2, e2), n2, t2))
    ensures KeyOf(LogEvent(GenreYearQuery(c, s1, e1), n1, t1)) != KeyOf(LogEvent(KeywordQuery(k), n2, t2))
  {
  }

  /** A logged search as the recent-searches view shows it: its time, the
      label of its kind, its keyword or its genre id with the year column, and
      its result count. */
  lemma RecentRowOfLoggedSearch(q: Query, count: nat, time: int, display: Display)
    ensures var row := RecentRowOf(DocOf(Summary(LogEvent(q, count, time))), display.formatTime, display.showParams);
      && row.time == display.formatTime(time)
      && DecimalValue(row.resultsFound) == count
      && (q.KeywordQuery? ==> row.searchType == "Keyword Search" && row.details == "Keyword: " + q.keyword)
      && (q.GenreYearQuery? ==>
            && row.searchType == "Genre & Year Search"
            && row.details == "Genre ID: " + q.categoryId + ", Year: " + YearText(Some(q.yearStart), Some(q.yearEnd)))
  {
    var d := DocOf(Summary(LogEvent(q, count, time)));
    RecentDefaults(d, display.formatTime, display.showParams);
  }

  /** The recent-searches view keys keyword searches by keyword and genre
      searches by genre id in one namespace: a keyword search for `x` followed
      by a genre search for genre id `x` leaves a single entry, the genre
      search. */
  lemma KeywordAndGenreShareRecentKey(x: string, s: int, e: int, n1: nat, n2: nat, t1: int, t2: int)
    requires t1 < t2
    ensures var events := [LogEvent(KeywordQuery(x), n1, t1), LogEvent(GenreYearQuery(x, s, e), n2, t2)];
      LastFiveUnique(LogStore(events, true)) == [Summary(events[1])]
  {
    var a := LogEvent(KeywordQuery(x), n1, t1);
    var b := LogEvent(GenreYearQuery(x, s, e), n2, t2);
    assert UniqueKey(a) == Some(x) == UniqueKey(b);
    SameKeyKeepsLatest(a, b, LastFiveUnique(LogStore([a, b], true)));
  }

  // ---------------------------------------------------------------------
  // The menu state machine
  // ---------------------------------------------------------------------

  /** How the renderer shows times and unknown parameter dictionaries. */
  datatype Display = Display(formatTime: int -> string, showParams: Params -> string)

  /** What the user sees, one item per message or table the model tells
      apart. The catalog's, the log writer's and the statistics' own error
      prints and the log writer's confirmation are not items: a failed catalog
      query shows as a search with no films, a failed statistics read as a
      view with no searches. */
  datatype Output =
    | Farewell
    | StoppedByUser
    | InvalidOption
    | InputRefused(error: InputError)
    | SearchShown(query: Query, results: seq<Film>, listing: Listing<Film>)
    | ActionFailed
    | PopularShown(popular: PopularView)
    | RecentShown(recent: RecentView)

  /** Why the loop ended: option 5, Ctrl-C at a text prompt, or no more input. */
  datatype Termination = Exited | StoppedByInterrupt | InputExhausted

  /** One pass through the loop: the world after it, what was shown, how far
      into the input it read, and whether the loop stops. */
  datatype Turn = Turn(world: World, outputs: seq<Output>, read: nat, stop: Option<Termination>)

  /** The log entries a sequence of outputs accounts for: one per search shown
      whose write did not fail, stamped with the clock value of its search, the
      clock moving on from `time` once per search. */
  function LogsFor(outputs: seq<Output>, time: int, down: set<int>): seq<Event>
  {
    if |outputs| == 0 then []
    else
      match outputs[0]
      case SearchShown(q, results, _) =>
        (if time in down then [] else [LogEvent(q, |results|, time)]) + LogsFor(outputs[1..], time + 1, down)
      case _ => LogsFor(outputs[1..], time, down)
  }

  /** The number of searches among the outputs. */
  function SearchCount(outputs: seq<Output>): nat
  {
    if |outputs| == 0 then 0
    else (if outputs[0].SearchShown? then 1 else 0) + SearchCount(outputs[1..])
  }

  /** The number of statistics views among the outputs. */
  function ViewCount(outputs: seq<Output>): nat
  {
    if |outputs| == 0 then 0
    else (if outputs[0].PopularShown? || outputs[0].RecentShown? then 1 else 0) + ViewCount(outputs[1..])
  }

  lemma {:induction false} CountsConcat(a: seq<Output>, b: seq<Output>, time: int, down: set<int>)
    ensures LogsFor(a + b, time, down) == LogsFor(a, time, down) + LogsFor(b, time + SearchCount(a), down)
    ensures SearchCount(a + b) == SearchCount(a) + SearchCount(b)
    ensures ViewCount(a + b) == ViewCount(a) + ViewCount(b)
  {
    if |a| == 0 {
      assert a + b == b;
    } else {
      var next := if a[0].SearchShown? then time + 1 else time;
      assert (a + b)[0] == a[0];
      assert (a + b)[1..] == a[1..] + b;
      CountsConcat(a[1..], b, next, down);
      assert SearchCount(a) == (if a[0].SearchShown? then 1 else 0) + SearchCount(a[1..]);
      match a[0]
      case SearchShown(q, results, _) =>
        var head := if time in down then [] else [LogEvent(q, |results|, time)];
        assert LogsFor(a + b, time, down) == head + LogsFor(a[1..] + b, next, down);
        assert LogsFor(a, time, down) == head + LogsFor(a[1..], next, down);
      case _ =>
        assert LogsFor(a + b, time, down) == LogsFor(a[1..] + b, next, down);
        assert LogsFor(a, time, down) == LogsFor(a[1..], next, down);
    }
  }

  /** Every search is logged at most once, and exactly once when no log write
      fails. */
  lemma {:induction false} LogsForAtMostOnce(outputs: seq<Output>, time: int, down: set<int>)
    ensures |LogsFor(outputs, time, down)| <= SearchCount(outputs)
    ensures down == {} ==> |LogsFor(outputs, time, down)| == SearchCount(outputs)
  {
    if |outputs| > 0 {
      LogsForAtMostOnce(outputs[1..], if outputs[0].SearchShown? then time + 1 else time, down);
    }
  }

  /** `before` becomes `after` through exactly the calls the outputs account
      for: the catalog and the outages are unchanged, the clock moves once per
      search, the lookup counter once per statistics view, and the log gains, in
      order, the entry of every search whose write did not fail. */
  ghost predicate Accounts(before: World, after: World, outputs: seq<Output>)
  {
    && after.films == before.films
    && after.outages == before.outages
    && after.clock == before.clock + SearchCount(outputs)
    && after.lookups == before.lookups + ViewCount(outputs)
    && after.events == before.events + LogsFor(outputs, before.clock, before.outages.writeDown)
  }

  /** Two stretches of the loop, each accounting for its own outputs, account
      for the outputs of both. */
  lemma AccountsCompose(w0: World, w1: World, w2: World, a: seq<Output>, b: seq<Output>)
    requires Accounts(w0, w1, a) && Accounts(w1, w2, b)
    ensures Accounts(w0, w2, a + b)
  {
    CountsConcat(a, b, w0.clock, w0.outages.writeDown);
  }

  /** What a search shows: the listing, followed by the failure message exactly
      when the input ran out at the page prompt. */
  function SearchOutputs(q: Query, results: seq<Film>, listing: Listing<Film>): (outputs: seq<Output>)
    ensures 1 <= |outputs| <= 2 && outputs[0] == SearchShown(q, results, listing)
    ensures ActionFailed in outputs <==> listing.Paged? && listing.ending == InputClosed
    ensures SearchCount(outputs) == 1 && ViewCount(outputs) == 0
    ensures forall time, down ::
      LogsFor(outputs, time, down) == (if time in down then [] else [LogEvent(q, |results|, time)])
    ensures Farewell !in outputs && StoppedByUser !in outputs
  {
    var shown := SearchShown(q, results, listing);
    if listing.Paged? && listing.ending == InputClosed then
      SearchThenFailure(q, results, listing);
      [shown, ActionFailed]
    else
      assert [shown][1..] == [];
      [shown]
  }

  /** A search followed by the failure message counts as one search, logged
      like the search alone. */
  lemma SearchThenFailure(q: Query, results: seq<Film>, listing: Listing<Film>)
    ensures var o := [SearchShown(q, results, listing), ActionFailed];
      && SearchCount(o) == 1 && ViewCount(o) == 0
      && forall time, down ::
           LogsFor(o, time, down) == (if time in down then [] else [LogEvent(q, |results|, time)])
  {
    var o := [SearchShown(q, results, listing), ActionFailed];
    assert o[1..] == [ActionFailed];
    forall time, down
      ensures LogsFor(o, time, down) == (if time in down then [] else [LogEvent(q, |results|, time)])
    {
      MessageLogsNothing(ActionFailed, time + 1, down);
    }
    MessageLogsNothing(ActionFailed, 0, {});
  }

  /** What an action that starts reading at position `at` guarantees: it
      accounts for its outputs and shows no statistics view, it reads forward
      from `at`, it never ends the program except for Ctrl-C, and it stops for
      Ctrl-C exactly when it says so, the last input it read being the
      interrupt. */
  ghost predicate ActionContract(w: World, inputs: seq<Input>, at: nat, t: Turn)
  {
    && Accounts(w, t.world, t.outputs)
    && ViewCount(t.outputs) == 0
    && at <= t.read <= |inputs|
    && (t.stop == None || t.stop == Some(StoppedByInterrupt))
    && Farewell !in t.outputs
    && (t.stop == Some(StoppedByInterrupt) <==> StoppedByUser in t.outputs)
    && (t.stop == Some(StoppedByInterrupt) ==> at < t.read && inputs[t.read - 1] == Interrupt)
  }

  /** An action that reads from `later` on also reads from any earlier position on. */
  lemma ActionContractFrom(w: World, inputs: seq<Input>, at: nat, later: nat, t: Turn)
    requires at <= later && ActionContract(w, inputs, later, t)
    ensures ActionContract(w, inputs, at, t)
  {
  }

  /** A single message that is not a search accounts for no log entry. */
  lemma MessageLogsNothing(o: Output, time: int, down: set<int>)
    requires !o.SearchShown?
    ensures LogsFor([o], time, down) == [] && SearchCount([o]) == 0
    ensures ViewCount([o]) == if o.PopularShown? || o.RecentShown? then 1 else 0
  {
    assert [o][1..] == [];
  }

  /** A turn that shows one message, changes nothing and returns to the menu. */
  lemma QuietTurn(w: World, inputs: seq<Input>, at: nat, o: Output, read: nat)
    requires at <= read <= |inputs|
    requires !o.SearchShown? && !o.PopularShown? && !o.RecentShown? && o != Farewell && o != StoppedByUser
    ensures ActionContract(w, inputs, at, Turn(w, [o], read, None))
  {
    MessageLogsNothing(o, w.clock, w.outages.writeDown);
  }

  /** A turn that stops the program for the Ctrl-C it just read. */
  lemma InterruptTurn(w: World, inputs: seq<Input>, at: nat, read: nat)
    requires at < read <= |inputs| && inputs[read - 1] == Interrupt
    ensures ActionContract(w, inputs, at, Turn(w, [StoppedByUser], read, Some(StoppedByInterrupt)))
  {
    MessageLogsNothing(StoppedByUser, w.clock, w.outages.writeDown);
  }

  /** A validated search: run the query on the catalog as this call finds it,
      log the search with the number of rows found unless this write fails,
      then list the rows, reading prompt replies from position `at` on. */
  function Search(w: World, q: Query, inputs: seq<Input>, at: nat): (t: Turn)
    requires at <= |inputs|
    ensures ActionContract(w, inputs, at, t)
    ensures t.stop == None && SearchCount(t.outputs) == 1
    ensures
      var results := RunQuery(QueryDatabase(w), q);
      var listing := Paginate(results, inputs[at..]);
      && t.outputs == SearchOutputs(q, results, listing)
      && t.read == at + (if listing.Paged? then listing.answersRead else 0)
      && t.world.events ==
           w.events + (if w.clock in w.outages.writeDown then [] else [LogEvent(q, |results|, w.clock)])
  {
    var results := RunQuery(QueryDatabase(w), q);
    var listing := Paginate(results, inputs[at..]);
    var read := if listing.Paged? then listing.answersRead else 0;
    var outputs := SearchOutputs(q, results, listing);
    var store := Append(WriteStore(w), LogEvent(q, |results|, w.clock));
    Turn(w.(events := store.events, clock := w.clock + 1), outputs, at + read, None)
  }

  /** The outputs of a search show no search but its own. */
  lemma SearchOnlyShowsQuery(q: Query, outputs: seq<Output>)
    requires |outputs| >= 1 && outputs[0].SearchShown? && outputs[0].query == q
    requires SearchCount(outputs) == 1
    ensures forall o | o in outputs && o.SearchShown? :: o.query == q
  {
    forall o | o in outputs && o.SearchShown? ensures o.query == q {
      var i :| 0 <= i < |outputs| && outputs[i] == o;
      if i > 0 {
        OneSearchAtHead(outputs, i);
      }
    }
  }

  /** With a single search at the head, no later output is a search. */
  lemma {:induction false} OneSearchAtHead(outputs: seq<Output>, i: nat)
    requires 0 < i < |outputs| && outputs[0].SearchShown? && SearchCount(outputs) == 1
    ensures !outputs[i].SearchShown?
  {
    NoSearchIn(outputs[1..], i - 1);
  }

  lemma {:induction false} NoSearchIn(outputs: seq<Output>, i: nat)
    requires i < |outputs| && SearchCount(outputs) == 0
    ensures !outputs[i].SearchShown?
  {
    if i > 0 {
      NoSearchIn(outputs[1..], i - 1);
    }
  }

  /** Menu option 1: read the keyword. A blank one is refused with nothing
      searched or logged; any other is searched for once, stripped. Ctrl-C at
      the prompt ends the program; running out of input is reported and the
      loop goes on. */
  function KeywordAction(w: World, inputs: seq<Input>, at: nat): (t: Turn)
    requires at <= |inputs|
    ensures ActionContract(w, inputs, at, t)
    ensures at == |inputs| ==> t == Turn(w, [ActionFailed], at, None)
    ensures at < |inputs| && inputs[at] == Interrupt ==>
      t == Turn(w, [StoppedByUser], at + 1, Some(StoppedByInterrupt))
    ensures at < |inputs| && inputs[at].Line? && AllSpace(inputs[at].text) ==>
      t == Turn(w, [InputRefused(EmptyKeyword)], at + 1, None)
    ensures at < |inputs| && inputs[at].Line? && !AllSpace(inputs[at].text) ==>
      t == Search(w, KeywordQuery(Trim(inputs[at].text)), inputs, at + 1)
    ensures forall o | o in t.outputs && o.SearchShown? :: o.query.KeywordQuery?
  {
    if at == |inputs| then
      QuietTurn(w, inputs, at, ActionFailed, at);
      Turn(w, [ActionFailed], at, None)
    else if inputs[at].Interrupt? then
      InterruptTurn(w, inputs, at, at + 1);
      Turn(w, [StoppedByUser], at + 1, Some(StoppedByInterrupt))
    else
      match ValidateKeyword(inputs[at].text)
      case Rejected(err) =>
        QuietTurn(w, inputs, at, InputRefused(err), at + 1);
        Turn(w, [InputRefused(err)], at + 1, None)
      case Accepted(q) =>
        var t := Search(w, q, inputs, at + 1);
        ActionContractFrom(w, inputs, at, at + 1, t);
        SearchOnlyShowsQuery(q, t.outputs);
        t
  }

  /** Menu option 2: read the genre id, then the year field. Blank fields or
      an unreadable year are refused with nothing searched or logged; otherwise
      the stripped genre id and the parsed range are searched for once. Ctrl-C
      at either prompt ends the program; running out of input at either prompt
      is reported and the loop goes on. */
  function GenreYearAction(w: World, inputs: seq<Input>, at: nat): (t: Turn)
    requires at <= |inputs|
    ensures ActionContract(w, inputs, at, t)
    ensures at == |inputs| || (at + 1 == |inputs| && inputs[at].Line?) ==>
      t == Turn(w, [ActionFailed], |inputs|, None)
    ensures at < |inputs| && inputs[at] == Interrupt ==>
      t == Turn(w, [StoppedByUser], at + 1, Some(StoppedByInterrupt))
    ensures at + 1 < |inputs| && inputs[at].Line? && inputs[at + 1] == Interrupt ==>
      t == Turn(w, [StoppedByUser], at + 2, Some(StoppedByInterrupt))
    ensures at + 1 < |inputs| && inputs[at].Line? && inputs[at + 1].Line? ==>
      var genre := inputs[at].text;
      var year := inputs[at + 1].text;
      && (AllSpace(genre) || AllSpace(year) ==> t == Turn(w, [InputRefused(EmptyGenreOrYear)], at + 2, None))
      && (!AllSpace(genre) && !AllSpace(year) && ParseYearRange(Trim(year)) == None ==>
            t == Turn(w, [InputRefused(InvalidYear)], at + 2, None))
      && (!AllSpace(genre) && !AllSpace(year) && ParseYearRange(Trim(year)).Some? ==>
            var range := ParseYearRange(Trim(year)).value;
            t == Search(w, GenreYearQuery(Trim(genre), range.0, range.1), inputs, at + 2))
    ensures forall o | o in t.outputs && o.SearchShown? :: o.query.GenreYearQuery?
  {
    if at == |inputs| then
      QuietTurn(w, inputs, at, ActionFailed, at);
      Turn(w, [ActionFailed], at, None)
    else if inputs[at].Interrupt? then
      InterruptTurn(w, inputs, at, at + 1);
      Turn(w, [StoppedByUser], at + 1, Some(StoppedByInterrupt))
    else if at + 1 == |inputs| then
      QuietTurn(w, inputs, at, ActionFailed, at + 1);
      Turn(w, [ActionFailed], at + 1, None)
    else if inputs[at + 1].Interrupt? then
      InterruptTurn(w, inputs, at, at + 2);
      Turn(w, [StoppedByUser], at + 2, Some(StoppedByInterrupt))
    else
      match ValidateGenreYear(inputs[at].text, inputs[at + 1].text)
      case Rejected(err) =>
        QuietTurn(w, inputs, at, InputRefused(err), at + 2);
        Turn(w, [InputRefused(err)], at + 2, None)
      case Accepted(q) =>
        var t := Search(w, q, inputs, at + 2);
        ActionContractFrom(w, inputs, at, at + 2, t);
        SearchOnlyShowsQuery(q, t.outputs);
        t
  }

  /** The recent-searches documents handed to the renderer. */
  function RecentDocs(store: LogStore): seq<RecentDoc>
  {
    var recent := LastFiveUnique(store);
    seq(|recent|, i requires 0 <= i < |recent| => DocOf(recent[i]))
  }

  /** What every pass through the loop guarantees: it accounts for its outputs,
      it reads at least one input, it stops for option 5 exactly when it says
      goodbye, and it stops for Ctrl-C exactly when it says so, the last input
      it read being the interrupt. */
  ghost predicate StepContract(w: World, inputs: seq<Input>, t: Turn)
    requires |inputs| > 0
  {
    && Accounts(w, t.world, t.outputs)
    && 1 <= t.read <= |inputs|
    && t.stop != Some(InputExhausted)
    && (t.stop == Some(Exited) ==> t.read == 1 && t.outputs == [Farewell])
    && (t.stop == Some(Exited) <==> Farewell in t.outputs)
    && (t.stop == Some(StoppedByInterrupt) <==> StoppedByUser in t.outputs)
    && (t.stop == Some(StoppedByInterrupt) ==> inputs[t.read - 1] == Interrupt)
  }

  /** An action chosen from the menu makes a pass through the loop. */
  lemma ActionIsStep(w: World, inputs: seq<Input>, t: Turn)
    requires |inputs| > 0
    requires ActionContract(w, inputs, 1, t)
    ensures StepContract(w, inputs, t)
  {
  }

  /** An unknown menu choice makes a pass through the loop that changes
      nothing. */
  lemma InvalidIsStep(w: World, inputs: seq<Input>)
    requires |inputs| > 0
    ensures StepContract(w, inputs, Turn(w, [InvalidOption], 1, None))
  {
    MessageLogsNothing(InvalidOption, w.clock, w.outages.writeDown);
  }

  /** Ctrl-C at the menu makes the last pass through the loop. */
  lemma InterruptIsStep(w: World, inputs: seq<Input>)
    requires |inputs| > 0 && inputs[0] == Interrupt
    ensures StepContract(w, inputs, Turn(w, [StoppedByUser], 1, Some(StoppedByInterrupt)))
  {
    MessageLogsNothing(StoppedByUser, w.clock, w.outages.writeDown);
  }

  /** A statistics view makes a pass through the loop that only counts one
      more read. */
  lemma ViewIsStep(w: World, inputs: seq<Input>, o: Output)
    requires |inputs| > 0
    requires o.PopularShown? || o.RecentShown?
    ensures StepContract(w, inputs, Turn(w.(lookups := w.lookups + 1), [o], 1, None))
  {
    MessageLogsNothing(o, w.clock, w.outages.writeDown);
    assert forall x | x in [o] :: x == o;
  }

  /** Option 5 makes the last pass through the loop. */
  lemma FarewellIsStep(w: World, inputs: seq<Input>)
    requires |inputs| > 0
    ensures StepContract(w, inputs, Turn(w, [Farewell], 1, Some(Exited)))
  {
    MessageLogsNothing(Farewell, w.clock, w.outages.writeDown);
  }

  /** One pass through `user_interaction_loop`: read the menu choice, strip it
      and act on it. Option 1 is the keyword action and option 2 the genre and
      year action, each reading the inputs after the choice; options 3 and 4
      show a statistics view from one read of the log; option 5 says goodbye
      and stops; anything else is refused; Ctrl-C stops. */
  function Step(w: World, inputs: seq<Input>, display: Display): (t: Turn)
    requires |inputs| > 0
    ensures StepContract(w, inputs, t)
    ensures t.stop == Some(Exited) <==> inputs[0].Line? && Trim(inputs[0].text) == "5"
    ensures inputs[0] == Interrupt ==> t == Turn(w, [StoppedByUser], 1, Some(StoppedByInterrupt))
    ensures inputs[0].Line? ==>
      var choice := Trim(inputs[0].text);
      && (choice == "1" ==> t == KeywordAction(w, inputs, 1))
      && (choice == "2" ==> t == GenreYearAction(w, inputs, 1))
      && (choice == "3" ==>
            t == Turn(w.(lookups := w.lookups + 1), [PopularShown(RenderPopular(TopFivePopular(ReadStore(w))))], 1, None))
      && (choice == "4" ==>
            t == Turn(w.(lookups := w.lookups + 1),
                      [RecentShown(RenderRecent(RecentDocs(ReadStore(w)), display.formatTime, display.showParams))], 1, None))
      && (choice !in {"1", "2", "3", "4", "5"} ==> t == Turn(w, [InvalidOption], 1, None))
  {
    if inputs[0].Interrupt? then
      InterruptIsStep(w, inputs);
      Turn(w, [StoppedByUser], 1, Some(StoppedByInterrupt))
    else
      var choice := Trim(inputs[0].text);
      if choice == "1" then
        var t := KeywordAction(w, inputs, 1);
        ActionIsStep(w, inputs, t);
        t
      else if choice == "2" then
        var t := GenreYearAction(w, inputs, 1);
        ActionIsStep(w, inputs, t);
        t
      else if choice == "3" then
        var shown := PopularShown(RenderPopular(TopFivePopular(ReadStore(w))));
        ViewIsStep(w, inputs, shown);
        Turn(w.(lookups := w.lookups + 1), [shown], 1, None)
      else if choice == "4" then
        var shown := RecentShown(RenderRecent(RecentDocs(ReadStore(w)), display.formatTime, display.showParams));
        ViewIsStep(w, inputs, shown);
        Turn(w.(lookups := w.lookups + 1), [shown], 1, None)
      else if choice == "5" then
        FarewellIsStep(w, inputs);
        Turn(w, [Farewell], 1, Some(Exited))
      else
        InvalidIsStep(w, inputs);
        Turn(w, [InvalidOption], 1, None)
  }

  /** A whole run of the loop: the world it leaves, everything it showed, how
      far into the input it read and why it ended. */
  datatype Session = Session(world: World, outputs: seq<Output>, read: nat, termination: Termination)

  /** What a whole run guarantees: it accounts for everything it showed (each
      search logged at most once, in order, the catalog unchanged); it ended on
      option 5 exactly when it said goodbye, last, the last input read being
      that choice; on Ctrl-C exactly when it said so, the last input read
      being the interrupt; and otherwise only after reading all of the input. */
  ghost predicate SessionContract(w: World, inputs: seq<Input>, s: Session)
  {
    && Accounts(w, s.world, s.outputs)
    && s.read <= |inputs|
    && (s.termination == InputExhausted ==> s.read == |inputs|)
    && (s.termination == Exited ==>
          && 0 < s.read && inputs[s.read - 1].Line? && Trim(inputs[s.read - 1].text) == "5"
          && 0 < |s.outputs| && s.outputs[|s.outputs| - 1] == Farewell)
    && (s.termination == StoppedByInterrupt ==> 0 < s.read && inputs[s.read - 1] == Interrupt)
    && (s.termination == Exited <==> Farewell in s.outputs)
    && (s.termination == StoppedByInterrupt <==> StoppedByUser in s.outputs)
  }

  /** A pass that stops the loop is a whole run. */
  lemma StopIsSession(w: World, inputs: seq<Input>, t: Turn)
    requires |inputs| > 0 && StepContract(w, inputs, t) && t.stop.Some?
    requires t.stop == Some(Exited) ==> inputs[0].Line? && Trim(inputs[0].text) == "5"
    ensures SessionContract(w, inputs, Session(t.world, t.outputs, t.read, t.stop.value))
  {
  }

  /** A pass that goes back to the menu, followed by a run over the input it
      left unread, is a whole run. */
  lemma ContinueIsSession(w: World, inputs: seq<Input>, t: Turn, rest: Session)
    requires |inputs| > 0 && StepContract(w, inputs, t) && t.stop.None?
    requires SessionContract(t.world, inputs[t.read..], rest)
    ensures SessionContract(w, inputs,
      Session(rest.world, t.outputs + rest.outputs, t.read + rest.read, rest.termination))
  {
    AccountsCompose(w, t.world, rest.world, t.outputs, rest.outputs);
    var all := t.outputs + rest.outputs;
    assert Farewell in all <==> Farewell in rest.outputs;
    assert StoppedByUser in all <==> StoppedByUser in rest.outputs;
    if rest.read > 0 {
      assert inputs[t.read..][rest.read - 1] == inputs[t.read + rest.read - 1];
    }
    if |rest.outputs| > 0 {
      assert all[|all| - 1] == rest.outputs[|rest.outputs| - 1];
    }
  }

  /** `user_interaction_loop` over a stream of terminal input: one `Step`
      after another, each reading where the one before it stopped, until a
      pass stops the loop or the input runs out. */
  function Loop(w: World, inputs: seq<Input>, display: Display): (s: Session)
    ensures SessionContract(w, inputs, s)
    decreases |inputs|
  {
    if |inputs| == 0 then Session(w, [], 0, InputExhausted)
    else
      var t := Step(w, inputs, display);
      if t.stop.Some? then
        StopIsSession(w, inputs, t);
        Session(t.world, t.outputs, t.read, t.stop.value)
      else
        var rest := Loop(t.world, inputs[t.read..], display);
        ContinueIsSession(w, inputs, t, rest);
        Session(rest.world, t.outputs + rest.outputs, t.read + rest.read, rest.termination)
  }

  /** A pass that stops the loop ends the run. */
  lemma LoopStops(w: World, inputs: seq<Input>, display: Display, t: Turn)
    requires |inputs| > 0 && t == Step(w, inputs, display) && t.stop.Some?
    ensures Loop(w, inputs, display) == Session(t.world, t.outputs, t.read, t.stop.value)
  {
  }

  /** A pass that goes back to the menu is followed by the run over the input
      it left unread. */
  lemma LoopContinues(w: World, inputs: seq<Input>, display: Display, t: Turn)
    requires |inputs| > 0 && t == Step(w, inputs, display) && t.stop.None?
    ensures
      var rest := Loop(t.world, inputs[t.read..], display);
      Loop(w, inputs, display) == Session(rest.world, t.outputs + rest.outputs, t.read + rest.read, rest.termination)
  {
  }

  /** Option 5 typed at the menu ends the run at once, with nothing but the
      goodbye shown and nothing logged. */
  lemma ExitAtMenu(w: World, inputs: seq<Input>, display: Display)
    requires |inputs| > 0 && inputs[0].Line? && Trim(inputs[0].text) == "5"
    ensures Loop(w, inputs, display) == Session(w, [Farewell], 1, Exited)
  {
    var t := Step(w, inputs, display);
    LoopStops(w, inputs, display, t);
  }

  /** The first pass over `1` then `5` is the keyword search for "5". */
  lemma KeywordFivePass(w: World, display: Display)
    ensures Step(w, [Line("1"), Line("5")], display) == Search(w, KeywordQuery("5"), [Line("1"), Line("5")], 2)
  {
    var inputs := [Line("1"), Line("5")];
    ChoiceOneIsKeyword(w, inputs, display);
    KeywordFiveAccepted(w, inputs);
  }

  /** Choice "1" at the menu opens the keyword prompt on the next input. */
  lemma ChoiceOneIsKeyword(w: World, inputs: seq<Input>, display: Display)
    requires |inputs| > 0 && inputs[0] == Line("1")
    ensures Step(w, inputs, display) == KeywordAction(w, inputs, 1)
  {
    TrimOfTrimmed("1");
  }

  /** At the keyword prompt, "5" is accepted as the keyword "5". */
  lemma KeywordFiveAccepted(w: World, inputs: seq<Input>)
    requires inputs == [Line("1"), Line("5")]
    ensures KeywordAction(w, inputs, 1) == Search(w, KeywordQuery("5"), inputs, 2)
  {
    TrimOfTrimmed("5");
    assert !AllSpace("5") by { assert !IsSpace("5"[0]); }
    TrimmedKeywordAccepted(w, inputs, 1, "5");
  }

  /** A keyword with no whitespace around it is searched as typed. */
  lemma TrimmedKeywordAccepted(w: World, inputs: seq<Input>, at: nat, k: string)
    requires at < |inputs| && inputs[at] == Line(k)
    requires Trim(k) == k && !AllSpace(k)
    ensures KeywordAction(w, inputs, at) == Search(w, KeywordQuery(k), inputs, at + 1)
  {
  }

  /** A "5" typed at the keyword prompt is a keyword, not a menu choice: the
      run searches for it and goes on until the input runs out. */
  lemma KeywordFiveIsNotExit(w: World, display: Display)
    ensures var s := Loop(w, [Line("1"), Line("5")], display);
      && s.termination == InputExhausted
      && |s.outputs| > 0 && s.outputs[0].SearchShown? && s.outputs[0].query == KeywordQuery("5")
  {
    var inputs := [Line("1"), Line("5")];
    var t := Step(w, inputs, display);
    KeywordFivePass(w, display);
    assert t.read == 2 && t.stop.None? && t.outputs[0].SearchShown? && t.outputs[0].query == KeywordQuery("5");
    LoopContinues(w, inputs, display, t);
    assert inputs[2..] == [];
  }

  /** Over a whole run each search is logged at most once, and exactly once
      when no log write fails. */
  lemma LoopLogsAtMostOnce(w: World, inputs: seq<Input>, display: Display)
    ensures var s := Loop(w, inputs, display);
      && |s.world.events| <= |w.events| + SearchCount(s.outputs)
      && (w.outages.writeDown == {} ==> |s.world.events| == |w.events| + SearchCount(s.outputs))
  {
    var s := Loop(w, inputs, display);
    LogsForAtMostOnce(s.outputs, w.clock, w.outages.writeDown);
  }

  /** The run that has shown `outputs` and read `read` inputs so far and
      goes on as `rest`. */
  function Resume(outputs: seq<Output>, read: nat, rest: Session): Session
  {
    Session(rest.world, outputs + rest.outputs, read + rest.read, rest.termination)
  }

  /** A pass that goes back to the menu hands the rest of the run on to the
      input it left unread. */
  lemma ResumeAdvances(whole: Session, outputs: seq<Output>, read: nat, world: World,
                       rest: seq<Input>, display: Display, t: Turn)
    requires |rest| > 0
    requires whole == Resume(outputs, read, Loop(world, rest, display))
    requires t == Step(world, rest, display) && t.stop.None?
    ensures whole == Resume(outputs + t.outputs, read + t.read, Loop(t.world, rest[t.read..], display))
  {
    LoopContinues(world, rest, display, t);
    AppendAssoc(outputs, t.outputs, Loop(t.world, rest[t.read..], display).outputs);
  }

  /** A pass that stops the loop ends the run where it stopped. */
  lemma ResumeStops(whole: Session, outputs: seq<Output>, read: nat, world: World,
                    rest: seq<Input>, display: Display, t: Turn)
    requires |rest| > 0
    requires whole == Resume(outputs, read, Loop(world, rest, display))
    requires t == Step(world, rest, display) && t.stop.Some?
    ensures whole == Session(t.world, outputs + t.outputs, read + t.read, t.stop.value)
  {
    LoopStops(world, rest, display, t);
  }

  /** `user_interaction_loop` as the program runs it: a `while True` loop that
      makes one pass after another over the input it has not read yet. It
      makes the same run as `Loop`. */
  method Run(w: World, inputs: seq<Input>, display: Display) returns (s: Session)
    ensures s == Loop(w, inputs, display)
    ensures SessionContract(w, inputs, s)
  {
    var world := w;
    var outputs: seq<Output> := [];
    var read := 0;
    var rest := inputs;
    AppendEmpty(Loop(w, inputs, display).outputs);
    while |rest| > 0
      invariant read + |rest| == |inputs|
      invariant Loop(w, inputs, display) == Resume(outputs, read, Loop(world, rest, display))
      decreases |rest|
    {
      var t := Step(world, rest, display);
      if t.stop.Some? {
        ResumeStops(Loop(w, inputs, display), outputs, read, world, rest, display, t);
        return Session(t.world, outputs + t.outputs, read + t.read, t.stop.value);
      }
      ResumeAdvances(Loop(w, inputs, display), outputs, read, world, rest, display, t);
      world, outputs, read, rest := t.world, outputs + t.outputs, read + t.read, rest[t.read..];
    }
    AppendEmpty(outputs);
    s := Session(world, outputs, read, InputExhausted);
  }
}

=== FILE: search_log.dfy ===
/** The search-event log kept in the document store, and the two aggregation
    pipelines read back from it, each restated as a function over the list of
    stored events. A store that cannot be reached drops writes (the failure is
    reported and swallowed) and answers every aggregation with an empty list. */
module SearchLog {
  import opened Base
  import opened Seqs

  /** The `params` sub-document: `keyword` for keyword searches,
      `category_id`, `year_start` and `year_end` for genre/year searches. */
  datatype Params = Params(
    keyword: Option<string>,
    categoryId: Option<string>,
    yearStart: Option<int>,
    yearEnd: Option<int>)

  /** One stored search. Timestamps are modelled as integers on a single clock. */
  datatype Event = Event(timestamp: int, searchType: string, params: Params, resultsCount: int)

  datatype LogStore = LogStore(events: seq<Event>, reachable: bool)

  /** `log_a_search`: the event is inserted when the store can be reached;
      otherwise nothing is stored and the caller carries on. */
  function Append(store: LogStore, e: Event): (after: LogStore)
    ensures after.reachable == store.reachable
    ensures store.reachable ==> after.events == store.events + [e]
    ensures !store.reachable ==> after == store
  {
    if store.reachable then store.(events := store.events + [e]) else store
  }

  // ---------------------------------------------------------------------
  // Top five most popular searches
  // ---------------------------------------------------------------------

  /** The `$group` key: the pair (`params.keyword`, `params.category_id`). */
  datatype GroupKey = GroupKey(keyword: Option<string>, categoryId: Option<string>)

  /** One `$group` output document: its key and `count_query`. */
  datatype Group = Group(key: GroupKey, count: nat)

  function KeyOf(e: Event): GroupKey
  {
    GroupKey(e.params.keyword, e.params.categoryId)
  }

  function GroupKeyOf(g: Group): GroupKey
  {
    g.key
  }

  /** How many events carry key `k`: the reference meaning of `$sum: 1`. */
  function Occurrences(events: seq<Event>, k: GroupKey): nat
  {
    if |events| == 0 then 0
    else Occurrences(events[..|events| - 1], k) + (if KeyOf(events[|events| - 1]) == k then 1 else 0)
  }

  lemma {:induction false} NoOccurrences(events: seq<Event>, k: GroupKey)
    requires forall i | 0 <= i < |events| :: KeyOf(events[i]) != k
    ensures Occurrences(events, k) == 0
  {
    if |events| > 0 {
      NoOccurrences(events[..|events| - 1], k);
    }
  }

  /** Counting one more event with key `k`. */
  function Bump(groups: seq<Group>, k: GroupKey): seq<Group>
  {
    match FindKey(groups, GroupKeyOf, k)
    case Some(i) => groups[i := Group(k, groups[i].count + 1)]
    case None => groups + [Group(k, 1)]
  }

  /** The groups are a faithful tally of `events`: one group per key that
      occurs, carrying the number of events with that key. */
  ghost predicate TallyOf(events: seq<Event>, groups: seq<Group>)
  {
    && DistinctBy(groups, GroupKeyOf)
    && (forall j | 0 <= j < |groups| :: groups[j].count == Occurrences(events, groups[j].key) > 0)
    && (forall i | 0 <= i < |events| :: KeyPresent(groups, GroupKeyOf, KeyOf(events[i])))
  }

  /** The `$group` stage, accumulated one event at a time. */
  function Tally(events: seq<Event>): (groups: seq<Group>)
    ensures TallyOf(events, groups)
  {
    if |events| == 0 then []
    else
      var prefix := events[..|events| - 1];
      var groups := Tally(prefix);
      BumpKeepsTally(prefix, groups, events[|events| - 1]);
      assert prefix + [events[|events| - 1]] == events;
      Bump(groups, KeyOf(events[|events| - 1]))
  }

  lemma BumpKeepsTally(events: seq<Event>, groups: seq<Group>, e: Event)
    requires TallyOf(events, groups)
    ensures TallyOf(events + [e], Bump(groups, KeyOf(e)))
  {
    var all := events + [e];
    var k := KeyOf(e);
    assert all[..|events|] == events;
    var after := Bump(groups, k);
    match FindKey(groups, GroupKeyOf, k)
    case Some(i) =>
      forall j | 0 <= j < |after| ensures after[j].count == Occurrences(all, after[j].key) > 0 {
        if j != i {
          assert after[j] == groups[j];
        }
      }
      forall i' | 0 <= i' < |all| ensures KeyPresent(after, GroupKeyOf, KeyOf(all[i'])) {
        if i' < |events| {
          assert KeyPresent(groups, GroupKeyOf, KeyOf(events[i']));
          var j :| 0 <= j < |groups| && GroupKeyOf(groups[j]) == KeyOf(events[i']);
          assert after[j].key == groups[j].key;
        } else {
          assert after[i].key == k;
        }
      }
    case None =>
      forall i' | 0 <= i' < |events| ensures KeyOf(events[i']) != k {
        assert KeyPresent(groups, GroupKeyOf, KeyOf(events[i']));
        var j :| 0 <= j < |groups| && GroupKeyOf(groups[j]) == KeyOf(events[i']);
      }
      NoOccurrences(events, k);
      forall j | 0 <= j < |after| ensures after[j].count == Occurrences(all, after[j].key) > 0 {
        if j < |groups| {
          assert after[j] == groups[j];
        }
      }
      forall i' | 0 <= i' < |all| ensures KeyPresent(after, GroupKeyOf, KeyOf(all[i'])) {
        if i' < |events| {
          assert KeyPresent(groups, GroupKeyOf, KeyOf(events[i']));
          var j :| 0 <= j < |groups| && GroupKeyOf(groups[j]) == KeyOf(events[i']);
          assert after[j].key == groups[j].key;
        } else {
          assert after[|groups|].key == k;
        }
      }
  }

  /** `{"$sort": {"count_query": -1}}`: more searched first. */
  predicate MoreSearched(a: Group, b: Group)
  {
    a.count >= b.count
  }

  lemma MoreSearchedIsTotalPreorder()
    ensures TotalPreorder(MoreSearched)
  {
  }

  /** What the popularity report promises about `top` for the events stored:
      at most five groups with distinct keys and exact counts, most searched
      first, and every key left out searched no more often than the last one
      shown (so with fewer than five keys, all of them are shown). */
  ghost predicate PopularityReport(events: seq<Event>, top: seq<Group>)
  {
    && |top| <= 5
    && DistinctBy(top, GroupKeyOf)
    && (forall j | 0 <= j < |top| :: top[j].count == Occurrences(events, top[j].key) > 0)
    && (forall i, j | 0 <= i < j < |top| :: top[i].count >= top[j].count)
    && (forall i | 0 <= i < |events| ::
          || KeyPresent(top, GroupKeyOf, KeyOf(events[i]))
          || (|top| == 5 && Occurrences(events, KeyOf(events[i])) <= top[4].count))
  }

  /** `get_top5_most_popular_searches`: `$group`, `$sort` by count descending, `$limit 5`. */
  function TopFivePopular(store: LogStore): (top: seq<Group>)
    ensures !store.reachable ==> top == []
    ensures store.reachable ==> PopularityReport(store.events, top)
  {
    if !store.reachable then []
    else
      var groups := Tally(store.events);
      MoreSearchedIsTotalPreorder();
      var sorted := SortBy(groups, MoreSearched);
      SortKeepsDistinctBy(groups, MoreSearched, GroupKeyOf);
      var top := Take(sorted, 5);
      TopFiveIsReport(store.events, groups, sorted, top);
      top
  }

  lemma TopFiveIsReport(events: seq<Event>, groups: seq<Group>, sorted: seq<Group>, top: seq<Group>)
    requires TallyOf(events, groups)
    requires SortedBy(sorted, MoreSearched) && DistinctBy(sorted, GroupKeyOf)
    requires forall g :: g in sorted <==> g in groups
    requires top == Take(sorted, 5)
    ensures PopularityReport(events, top)
  {
    forall j | 0 <= j < |top| ensures top[j].count == Occurrences(events, top[j].key) > 0 {
      assert top[j] == sorted[j];
      assert sorted[j] in groups;
    }
    forall i | 0 <= i < |events|
      ensures || KeyPresent(top, GroupKeyOf, KeyOf(events[i]))
              || (|top| == 5 && Occurrences(events, KeyOf(events[i])) <= top[4].count)
    {
      assert KeyPresent(groups, GroupKeyOf, KeyOf(events[i]));
      var j :| 0 <= j < |groups| && GroupKeyOf(groups[j]) == KeyOf(events[i]);
      assert groups[j] in sorted;
      var m :| 0 <= m < |sorted| && sorted[m] == groups[j];
      if m < |top| {
        assert top[m] == sorted[m];
      } else {
        assert top[4] == sorted[4];
        assert MoreSearched(sorted[4], sorted[m]);
      }
    }
  }

  /** A key searched more often than some listed group is listed as well, and
      above that group. */
  lemma MorePopularRanksHigher(events: seq<Event>, top: seq<Group>, a: GroupKey, i: nat, j: nat)
    requires PopularityReport(events, top)
    requires i < |events| && KeyOf(events[i]) == a
    requires j < |top| && Occurrences(events, a) > top[j].count
    ensures exists k | 0 <= k < j :: top[k].key == a
  {
    if |top| == 5 {
      assert j == 4 || top[j].count >= top[4].count;
    }
    assert KeyPresent(top, GroupKeyOf, a);
    var k :| 0 <= k < |top| && GroupKeyOf(top[k]) == a;
    assert top[k].count == Occurrences(events, a) > top[j].count;
  }

  // ---------------------------------------------------------------------
  // Last five unique searches
  // ---------------------------------------------------------------------

  /** The `unique_key` the second pipeline groups on: the keyword of a keyword
      search and the category id of anything else. Keywords and category ids
      share one key space. */
  function UniqueKey(e: Event): (r: Option<string>)
    ensures e.searchType == "keyword" ==> r == KeyOf(e).keyword
    ensures e.searchType != "keyword" ==> r == KeyOf(e).categoryId
  {
    if e.searchType == "keyword" then e.params.keyword else e.params.categoryId
  }

  /** The shared key space in one case: a keyword search for `k` and a genre
      search on category `k` are two groups for the popularity count but one
      key for the recent list. */
  lemma KeywordMeetsCategory(a: Event, b: Event, k: string)
    requires a.searchType == "keyword" && a.params.keyword == Some(k) && a.params.categoryId.None?
    requires b.searchType == "genre_year" && b.params.categoryId == Some(k)
    ensures UniqueKey(a) == UniqueKey(b) == Some(k)
    ensures KeyOf(a) != KeyOf(b)
  {
  }

  /** One output document of the second pipeline: the key and the
      `last_search_time`, `search_type`, `search_params` and `results_count`
      taken from one event. */
  datatype Latest = Latest(
    key: Option<string>,
    lastSearchTime: int,
    searchType: string,
    searchParams: Params,
    resultsCount: int)

  function LatestKeyOf(l: Latest): Option<string>
  {
    l.key
  }

  function Summary(e: Event): Latest
  {
    Latest(UniqueKey(e), e.timestamp, e.searchType, e.params, e.resultsCount)
  }

  /** Latest wins: `l` is taken whole from one event with its key, and no event
      with that key is more recent. */
  ghost predicate IsLatestOf(events: seq<Event>, l: Latest)
  {
    && (exists i | 0 <= i < |events| :: Summary(events[i]) == l)
    && (forall i | 0 <= i < |events| && UniqueKey(events[i]) == l.key ::
          events[i].timestamp <= l.lastSearchTime)
  }

  /** `latest` holds, for every key among `events`, exactly one most recent event. */
  ghost predicate CollapseOf(events: seq<Event>, latest: seq<Latest>)
  {
    && DistinctBy(latest, LatestKeyOf)
    && (forall j | 0 <= j < |latest| :: IsLatestOf(events, latest[j]))
    && (forall i | 0 <= i < |events| :: KeyPresent(latest, LatestKeyOf, UniqueKey(events[i])))
  }

  /** Folding one more event in: a new key is added, a strictly newer event
      replaces the entry for its key, an older one is ignored. */
  function Absorb(latest: seq<Latest>, e: Event): seq<Latest>
  {
    match FindKey(latest, LatestKeyOf, UniqueKey(e))
    case Some(j) => if e.timestamp > latest[j].lastSearchTime then latest[j := Summary(e)] else latest
    case None => latest + [Summary(e)]
  }

  /** The `$sort` by timestamp and `$group` with `$first`: the latest event of each key. */
  function Collapse(events: seq<Event>): (latest: seq<Latest>)
    ensures CollapseOf(events, latest)
  {
    if |events| == 0 then []
    else
      var prefix := events[..|events| - 1];
      var latest := Collapse(prefix);
      AbsorbKeepsCollapse(prefix, latest, events[|events| - 1]);
      assert prefix + [events[|events| - 1]] == events;
      Absorb(latest, events[|events| - 1])
  }

  /** An entry stays the latest for its key when the new event is no more recent
      or has another key. */
  lemma LatestSurvives(events: seq<Event>, l: Latest, e: Event)
    requires IsLatestOf(events, l)
    requires UniqueKey(e) != l.key || e.timestamp <= l.lastSearchTime
    ensures IsLatestOf(events + [e], l)
  {
    var all := events + [e];
    var i :| 0 <= i < |events| && Summary(events[i]) == l;
    assert all[i] == events[i];
    forall i' | 0 <= i' < |all| && UniqueKey(all[i']) == l.key
      ensures all[i'].timestamp <= l.lastSearchTime
    {
      if i' < |events| {
        assert all[i'] == events[i'];
      }
    }
  }

  lemma AbsorbKeepsCollapse(events: seq<Event>, latest: seq<Latest>, e: Event)
    requires CollapseOf(events, latest)
    ensures CollapseOf(events + [e], Absorb(latest, e))
  {
    match FindKey(latest, LatestKeyOf, UniqueKey(e))
    case Some(j) =>
      if e.timestamp > latest[j].lastSearchTime {
        NewerReplaces(events, latest, e, j);
      } else {
        OlderIgnored(events, latest, e, j);
      }
    case None =>
      NewKeyAdded(events, latest, e);
  }

  lemma NewerReplaces(events: seq<Event>, latest: seq<Latest>, e: Event, j: nat)
    requires CollapseOf(events, latest)
    requires j < |latest| && latest[j].key == UniqueKey(e)
    requires e.timestamp > latest[j].lastSearchTime
    ensures CollapseOf(events + [e], latest[j := Summary(e)])
  {
    var all := events + [e];
    var k := UniqueKey(e);
    var after := latest[j := Summary(e)];
    assert all[|events|] == e;
    forall j' | 0 <= j' < |after| ensures IsLatestOf(all, after[j']) {
      if j' == j {
        forall i | 0 <= i < |all| && UniqueKey(all[i]) == k
          ensures all[i].timestamp <= e.timestamp
        {
          if i < |events| {
            assert all[i] == events[i];
          }
        }
        assert Summary(all[|events|]) == after[j'];
      } else {
        assert after[j'] == latest[j'];
        LatestSurvives(events, latest[j'], e);
      }
    }
    forall i | 0 <= i < |all| ensures KeyPresent(after, LatestKeyOf, UniqueKey(all[i])) {
      if i < |events| {
        assert all[i] == events[i];
        assert KeyPresent(latest, LatestKeyOf, UniqueKey(events[i]));
        var m :| 0 <= m < |latest| && LatestKeyOf(latest[m]) == UniqueKey(events[i]);
        assert after[m].key == latest[m].key;
      } else {
        assert after[j].key == k;
      }
    }
    assert DistinctBy(after, LatestKeyOf) by {
      forall m | 0 <= m < |after| ensures after[m].key == latest[m].key {}
    }
  }

  lemma OlderIgnored(events: seq<Event>, latest: seq<Latest>, e: Event, j: nat)
    requires CollapseOf(events, latest)
    requires j < |latest| && latest[j].key == UniqueKey(e)
    requires e.timestamp <= latest[j].lastSearchTime
    ensures CollapseOf(events + [e], latest)
  {
    var all := events + [e];
    forall j' | 0 <= j' < |latest| ensures IsLatestOf(all, latest[j']) {
      LatestSurvives(events, latest[j'], e);
    }
    forall i | 0 <= i < |all| ensures KeyPresent(latest, LatestKeyOf, UniqueKey(all[i])) {
      if i < |events| {
        assert all[i] == events[i];
      } else {
        assert all[i] == e;
      }
    }
  }

  lemma NewKeyAdded(events: seq<Event>, latest: seq<Latest>, e: Event)
    requires CollapseOf(events, latest)
    requires forall j | 0 <= j < |latest| :: latest[j].key != UniqueKey(e)
    ensures CollapseOf(events + [e], latest + [Summary(e)])
  {
    var all := events + [e];
    var k := UniqueKey(e);
    var after := latest + [Summary(e)];
    assert all[|events|] == e;
    forall j' | 0 <= j' < |after| ensures IsLatestOf(all, after[j']) {
      if j' < |latest| {
        assert after[j'] == latest[j'];
        LatestSurvives(events, latest[j'], e);
      } else {
        forall i | 0 <= i < |events| ensures UniqueKey(all[i]) != k {
          assert all[i] == events[i];
          assert KeyPresent(latest, LatestKeyOf, UniqueKey(events[i]));
          var m :| 0 <= m < |latest| && LatestKeyOf(latest[m]) == UniqueKey(events[i]);
        }
        assert Summary(all[|events|]) == after[j'];
      }
    }
    forall i | 0 <= i < |all| ensures KeyPresent(after, LatestKeyOf, UniqueKey(all[i])) {
      if i < |events| {
        assert all[i] == events[i];
        assert KeyPresent(latest, LatestKeyOf, UniqueKey(events[i]));
        var m :| 0 <= m < |latest| && LatestKeyOf(latest[m]) == UniqueKey(events[i]);
        assert after[m] == latest[m];
      } else {
        assert after[|latest|].key == k;
      }
    }
  }

  /** `{"$sort": {"last_search_time": -1}}`: more recent first. */
  predicate MoreRecent(a: Latest, b: Latest)
  {
    a.lastSearchTime >= b.lastSearchTime
  }

  lemma MoreRecentIsTotalPreorder()
    ensures TotalPreorder(MoreRecent)
  {
  }

  /** What the recent-searches report promises about `recent`: at most five
      entries with distinct keys, each the latest event of its key, most recent
      first, and every event whose key is left out no more recent than the last
      entry shown (so with fewer than five keys, all of them are shown). */
  ghost predicate RecencyReport(events: seq<Event>, recent: seq<Latest>)
  {
    && |recent| <= 5
    && DistinctBy(recent, LatestKeyOf)
    && (forall j | 0 <= j < |recent| :: IsLatestOf(events, recent[j]))
    && (forall i, j | 0 <= i < j < |recent| :: recent[i].lastSearchTime >= recent[j].lastSearchTime)
    && (forall i | 0 <= i < |events| ::
          || KeyPresent(recent, LatestKeyOf, UniqueKey(events[i]))
          || (|recent| == 5 && events[i].timestamp <= recent[4].lastSearchTime))
  }

  /** `get_last_5_unique_searches`: latest event per unique key, then the five
      most recent of those. */
  function LastFiveUnique(store: LogStore): (recent: seq<Latest>)
    ensures !store.reachable ==> recent == []
    ensures store.reachable ==> RecencyReport(store.events, recent)
  {
    if !store.reachable then []
    else
      var latest := Collapse(store.events);
      MoreRecentIsTotalPreorder();
      var sorted := SortBy(latest, MoreRecent);
      SortKeepsDistinctBy(latest, MoreRecent, LatestKeyOf);
      var recent := Take(sorted, 5);
      LastFiveIsReport(store.events, latest, sorted, recent);
      recent
  }

  lemma LastFiveIsReport(events: seq<Event>, latest: seq<Latest>, sorted: seq<Latest>, recent: seq<Latest>)
    requires CollapseOf(events, latest)
    requires SortedBy(sorted, MoreRecent) && DistinctBy(sorted, LatestKeyOf)
    requires forall l :: l in sorted <==> l in latest
    requires recent == Take(sorted, 5)
    ensures RecencyReport(events, recent)
  {
    forall j | 0 <= j < |recent| ensures IsLatestOf(events, recent[j]) {
      assert recent[j] == sorted[j];
      assert sorted[j] in latest;
    }
    forall i | 0 <= i < |events|
      ensures || KeyPresent(recent, LatestKeyOf, UniqueKey(events[i]))
              || (|recent| == 5 && events[i].timestamp <= recent[4].lastSearchTime)
    {
      LastFiveCoversEvent(events, latest, sorted, recent, i);
    }
  }

  /** An event whose key is not among the five listed is no more recent than
      the fifth. */
  lemma LastFiveCoversEvent(events: seq<Event>, latest: seq<Latest>, sorted: seq<Latest>, recent: seq<Latest>, i: nat)
    requires CollapseOf(events, latest)
    requires SortedBy(sorted, MoreRecent)
    requires forall l :: l in sorted <==> l in latest
    requires recent == Take(sorted, 5)
    requires i < |events|
    ensures || KeyPresent(recent, LatestKeyOf, UniqueKey(events[i]))
            || (|recent| == 5 && events[i].timestamp <= recent[4].lastSearchTime)
  {
    assert KeyPresent(latest, LatestKeyOf, UniqueKey(events[i]));
    var j :| 0 <= j < |latest| && LatestKeyOf(latest[j]) == UniqueKey(events[i]);
    assert IsLatestOf(events, latest[j]);
    assert latest[j] in sorted;
    var m :| 0 <= m < |sorted| && sorted[m] == latest[j];
    if m < |recent| {
      assert recent[m] == sorted[m];
    } else {
      assert recent[4] == sorted[4];
      assert MoreRecent(sorted[4], sorted[m]);
    }
  }

  /** A search more recent than some listed entry has its key listed as well,
      and above that entry. */
  lemma MoreRecentRanksHigher(events: seq<Event>, recent: seq<Latest>, i: nat, j: nat)
    requires RecencyReport(events, recent)
    requires i < |events| && j < |recent|
    requires events[i].timestamp > recent[j].lastSearchTime
    ensures exists k | 0 <= k < j :: recent[k].key == UniqueKey(events[i])
  {
    var a := UniqueKey(events[i]);
    assert recent[j].lastSearchTime >= recent[|recent| - 1].lastSearchTime;
    assert KeyPresent(recent, LatestKeyOf, a);
    var k :| 0 <= k < |recent| && LatestKeyOf(recent[k]) == a;
    assert IsLatestOf(events, recent[k]);
    assert recent[k].lastSearchTime > recent[j].lastSearchTime;
    assert k < j;
  }

  /** Two searches under one key leave one entry in the recent-searches list:
      the later search. */
  lemma SameKeyKeepsLatest(a: Event, b: Event, recent: seq<Latest>)
    requires UniqueKey(a) == UniqueKey(b) && a.timestamp < b.timestamp
    requires RecencyReport([a, b], recent)
    ensures recent == [Summary(b)]
  {
    var events := [a, b];
    forall j | 0 <= j < |recent| ensures recent[j] == Summary(b) {
      assert IsLatestOf(events, recent[j]);
      var i :| 0 <= i < |events| && Summary(events[i]) == recent[j];
      assert UniqueKey(events[1]) == recent[j].key;
      assert b.timestamp <= recent[j].lastSearchTime;
    }
    if |recent| > 0 {
      assert LatestKeyOf(recent[0]) == LatestKeyOf(recent[|recent| - 1]);
    }
    assert |recent| < 2;
    assert events[0] == a;
    assert KeyPresent(recent, LatestKeyOf, UniqueKey(a));
  }
}

=== FILE: seqs.dfy ===
/** Sequence tools shared by the SQL and aggregation models: concatenation,
    filtering, key lookup, sorting by a total preorder and taking a ranked prefix.
    A preorder may rank two different elements equal; nothing here fixes how
    such ties come out, and no contract depends on it. */
module Seqs {
  import opened Base

  /** Concatenation regroups freely. */
  lemma AppendAssoc<T>(a: seq<T>, b: seq<T>, c: seq<T>)
    ensures a + (b + c) == (a + b) + c
  {
  }

  /** The empty sequence is a unit of concatenation. */
  lemma AppendEmpty<T>(a: seq<T>)
    ensures [] + a == a && a + [] == a
  {
  }

  /** The elements of `s` that satisfy `p`, in their original order. */
  function Filter<T(!new)>(s: seq<T>, p: T -> bool): (r: seq<T>)
    ensures forall x :: multiset(r)[x] == if p(x) then multiset(s)[x] else 0
    ensures forall x :: x in r <==> x in s && p(x)
  {
    if |s| == 0 then []
    else
      var rest := Filter(s[1..], p);
      assert s == [s[0]] + s[1..];
      if p(s[0]) then [s[0]] + rest else rest
  }

  /** Filtering with two predicates that agree on every element gives the same sequence. */
  lemma {:induction false} FilterCongruent<T(!new)>(s: seq<T>, p: T -> bool, q: T -> bool)
    requires forall k | 0 <= k < |s| :: p(s[k]) == q(s[k])
    ensures Filter(s, p) == Filter(s, q)
  {
    if |s| > 0 {
      FilterCongruent(s[1..], p, q);
    }
  }

  /** No two elements of `s` share a key. */
  predicate DistinctBy<T, K(==)>(s: seq<T>, key: T -> K)
  {
    forall i, j | 0 <= i < j < |s| :: key(s[i]) != key(s[j])
  }

  /** `leq` ranks any two values, and does so transitively. */
  ghost predicate TotalPreorder<T(!new)>(leq: (T, T) -> bool)
  {
    && (forall a, b :: leq(a, b) || leq(b, a))
    && (forall a, b, c :: leq(a, b) && leq(b, c) ==> leq(a, c))
  }

  /** Every element is ranked at or before every later one. */
  predicate SortedBy<T>(s: seq<T>, leq: (T, T) -> bool)
  {
    forall i, j | 0 <= i < j < |s| :: leq(s[i], s[j])
  }

  /** `x` placed into the sorted sequence `s`: still sorted, one more copy of `x`. */
  function Insert<T(!new)>(x: T, s: seq<T>, leq: (T, T) -> bool): (r: seq<T>)
    requires TotalPreorder(leq)
    requires SortedBy(s, leq)
    ensures SortedBy(r, leq)
    ensures multiset(r) == multiset(s) + multiset{x}
    ensures forall y :: y in r <==> y == x || y in s
  {
    if |s| == 0 then [x]
    else if leq(x, s[0]) then
      [x] + s
    else
      var rest := Insert(x, s[1..], leq);
      assert s == [s[0]] + s[1..];
      HeadPrecedesInsert(x, s, rest, leq);
      [s[0]] + rest
  }

  /** The head of a sorted `s` that `x` does not precede is ranked before all of `x`
      inserted into the tail. */
  lemma HeadPrecedesInsert<T(!new)>(x: T, s: seq<T>, rest: seq<T>, leq: (T, T) -> bool)
    requires TotalPreorder(leq)
    requires SortedBy(s, leq) && |s| > 0 && !leq(x, s[0])
    requires forall y :: y in rest <==> y == x || y in s[1..]
    ensures forall j | 0 <= j < |rest| :: leq(s[0], rest[j])
  {
    forall j | 0 <= j < |rest| ensures leq(s[0], rest[j]) {
      assert rest[j] in rest;
      if rest[j] != x {
        var k :| 0 <= k < |s[1..]| && s[1..][k] == rest[j];
        assert s[k + 1] == rest[j];
      }
    }
  }

  /** Insertion sort: a permutation of `s` ordered by `leq`. */
  function SortBy<T(!new)>(s: seq<T>, leq: (T, T) -> bool): (r: seq<T>)
    requires TotalPreorder(leq)
    ensures SortedBy(r, leq)
    ensures multiset(r) == multiset(s)
    ensures forall y :: y in r <==> y in s
  {
    if |s| == 0 then []
    else
      assert s == [s[0]] + s[1..];
      Insert(s[0], SortBy(s[1..], leq), leq)
  }

  /** Inserting a value whose key is new keeps keys distinct. */
  lemma InsertKeepsDistinctBy<T(!new), K>(x: T, s: seq<T>, leq: (T, T) -> bool, key: T -> K)
    requires TotalPreorder(leq) && SortedBy(s, leq)
    requires DistinctBy(s, key)
    requires forall k | 0 <= k < |s| :: key(s[k]) != key(x)
    ensures DistinctBy(Insert(x, s, leq), key)
    decreases |s|
  {
    if |s| == 0 {
      assert Insert(x, s, leq) == [x];
    } else if leq(x, s[0]) {
      assert Insert(x, s, leq) == [x] + s;
      ConsKeepsDistinctBy(x, s, key);
    } else {
      var rest := Insert(x, s[1..], leq);
      assert DistinctBy(s[1..], key) by {
        forall i, j | 0 <= i < j < |s| - 1 ensures key(s[1..][i]) != key(s[1..][j]) {
          assert s[1..][i] == s[i + 1] && s[1..][j] == s[j + 1];
        }
      }
      InsertKeepsDistinctBy(x, s[1..], leq, key);
      HeadKeyNotInRest(x, s, rest, key);
      assert Insert(x, s, leq) == [s[0]] + rest;
      ConsKeepsDistinctBy(s[0], rest, key);
    }
  }

  /** A new head whose key differs from every key of a key-distinct `t` keeps
      keys distinct. */
  lemma ConsKeepsDistinctBy<T, K>(h: T, t: seq<T>, key: T -> K)
    requires DistinctBy(t, key)
    requires forall k | 0 <= k < |t| :: key(h) != key(t[k])
    ensures DistinctBy([h] + t, key)
  {
    var r := [h] + t;
    forall i, j | 0 <= i < j < |r| ensures key(r[i]) != key(r[j]) {
      assert r[j] == t[j - 1];
      if i > 0 {
        assert r[i] == t[i - 1];
      }
    }
  }

  /** The head of `s` shares its key with nothing that holds only `x` and the
      rest of `s`, when all keys of `s` and `x` differ. */
  lemma HeadKeyNotInRest<T, K>(x: T, s: seq<T>, rest: seq<T>, key: T -> K)
    requires |s| > 0 && DistinctBy(s, key)
    requires forall k | 0 <= k < |s| :: key(s[k]) != key(x)
    requires forall y :: y in rest <==> y == x || y in s[1..]
    ensures forall j | 0 <= j < |rest| :: key(s[0]) != key(rest[j])
  {
    forall j | 0 <= j < |rest| ensures key(s[0]) != key(rest[j]) {
      assert rest[j] in rest;
      if rest[j] != x {
        var k :| 0 <= k < |s[1..]| && s[1..][k] == rest[j];
        assert s[k + 1] == rest[j];
      }
    }
  }

  /** Sorting keeps keys distinct. */
  lemma {:induction false} SortKeepsDistinctBy<T(!new), K>(s: seq<T>, leq: (T, T) -> bool, key: T -> K)
    requires TotalPreorder(leq)
    requires DistinctBy(s, key)
    ensures DistinctBy(SortBy(s, leq), key)
  {
    if |s| > 0 {
      var tail := s[1..];
      assert DistinctBy(tail, key) by {
        forall i, j | 0 <= i < j < |tail| ensures key(tail[i]) != key(tail[j]) {
          assert tail[i] == s[i + 1] && tail[j] == s[j + 1];
        }
      }
      SortKeepsDistinctBy(tail, leq, key);
      var sorted := SortBy(tail, leq);
      forall k | 0 <= k < |sorted| ensures key(sorted[k]) != key(s[0]) {
        assert sorted[k] in tail;
        var m :| 0 <= m < |tail| && tail[m] == sorted[k];
        assert s[m + 1] == sorted[k];
      }
      InsertKeepsDistinctBy(s[0], sorted, leq, key);
    }
  }

  /** The first `n` elements of `s` (all of them when there are fewer), as MongoDB's `$limit` keeps them. */
  function Take<T>(s: seq<T>, n: nat): (r: seq<T>)
    ensures |r| == if |s| <= n then |s| else n
    ensures forall k | 0 <= k < |r| :: r[k] == s[k]
  {
    if |s| <= n then s else s[..n]
  }

  /** Some element of `s` carries key `k`. */
  predicate KeyPresent<T, K(==)>(s: seq<T>, key: T -> K, k: K)
  {
    exists j | 0 <= j < |s| :: key(s[j]) == k
  }

  /** The position of the element of `s` carrying key `k`, if any. */
  function FindKey<T, K(==)>(s: seq<T>, key: T -> K, k: K): (r: Option<nat>)
    ensures r.Some? ==> r.value < |s| && key(s[r.value]) == k
    ensures r.None? ==> forall j | 0 <= j < |s| :: key(s[j]) != k
  {
    if |s| == 0 then None
    else if key(s[|s| - 1]) == k then Some(|s| - 1)
    else FindKey(s[..|s| - 1], key, k)
  }
}

=== FILE: text.dfy ===
/** The string operations the application leans on, as Python performs them:
    `str.strip()`, `str.split(sep)`, `int(text)` and `str(n)`. */
module Text {
  import opened Base

  /** Python's `str.isspace()` for one character: the code points `strip()`
      removes. */
  predicate IsSpace(c: char)
  {
    var n := c as int;
    || 0x09 <= n <= 0x0D
    || 0x1C <= n <= 0x20
    || n == 0x85 || n == 0xA0 || n == 0x1680
    || 0x2000 <= n <= 0x200A
    || n == 0x2028 || n == 0x2029 || n == 0x202F || n == 0x205F || n == 0x3000
  }

  predicate AllSpace(s: string)
  {
    forall k | 0 <= k < |s| :: IsSpace(s[k])
  }

  /** Number of whitespace characters at the front of `s`. */
  function LeadingSpaces(s: string): (n: nat)
    ensures n <= |s|
    ensures AllSpace(s[..n])
    ensures n < |s| ==> !IsSpace(s[n])
  {
    if |s| > 0 && IsSpace(s[0]) then 1 + LeadingSpaces(s[1..]) else 0
  }

  /** Number of whitespace characters at the back of `s`. */
  function TrailingSpaces(s: string): (n: nat)
    ensures n <= |s|
    ensures AllSpace(s[|s| - n..])
    ensures n < |s| ==> !IsSpace(s[|s| - n - 1])
  {
    if |s| > 0 && IsSpace(s[|s| - 1]) then 1 + TrailingSpaces(s[..|s| - 1]) else 0
  }

  /** `r` is `s` with the whitespace run `s[..i]` cut from the front and
      whitespace cut from the back. */
  ghost predicate StrippedAt(s: string, r: string, i: int)
  {
    && 0 <= i <= i + |r| <= |s|
    && s[i..i + |r|] == r
    && AllSpace(s[..i])
    && AllSpace(s[i + |r|..])
  }

  /** Python's `s.strip()`: the longest inner slice of `s` that neither starts
      nor ends with whitespace, everything cut away being whitespace. */
  function Trim(s: string): (r: string)
    ensures exists i :: StrippedAt(s, r, i)
    ensures r == [] || (!IsSpace(r[0]) && !IsSpace(r[|r| - 1]))
  {
    var a := LeadingSpaces(s);
    var t := s[a..];
    var b := TrailingSpaces(t);
    var r := t[..|t| - b];
    assert |r| > 0 ==> r[0] == s[a] && r[|r| - 1] == t[|t| - b - 1];
    assert s[a..a + |r|] == r;
    assert s[a + |r|..] == t[|t| - b..];
    assert StrippedAt(s, r, a);
    r
  }

  /** `strip()` yields the empty string exactly when the input is all whitespace:
      this is how an empty answer is told apart from a real one. */
  lemma TrimEmptyIffAllSpace(s: string)
    ensures Trim(s) == [] <==> AllSpace(s)
  {
    var i :| StrippedAt(s, Trim(s), i);
    if Trim(s) == [] {
      assert s == s[..i] + s[i..];
      forall k | 0 <= k < |s| ensures IsSpace(s[k]) {
        if k < i { assert s[k] == s[..i][k]; } else { assert s[k] == s[i..][k - i]; }
      }
    }
  }

  /** A string that neither starts nor ends with whitespace is its own strip. */
  lemma TrimOfTrimmed(s: string)
    requires s == [] || (!IsSpace(s[0]) && !IsSpace(s[|s| - 1]))
    ensures Trim(s) == s
  {
    var i :| StrippedAt(s, Trim(s), i);
    if |s| > 0 {
      assert i == 0;
      assert |Trim(s)| == |s|;
    }
  }

  /** The leading whitespace run stops at the first character that is not whitespace. */
  lemma {:induction false} LeadingSpacesStop(s: string, k: nat)
    requires k < |s| && !IsSpace(s[k])
    ensures LeadingSpaces(s) <= k
  {
    if IsSpace(s[0]) {
      LeadingSpacesStop(s[1..], k - 1);
    }
  }

  /** The trailing whitespace run stops at the last character that is not whitespace. */
  lemma {:induction false} TrailingSpacesStop(s: string, k: nat)
    requires k < |s| && !IsSpace(s[k])
    ensures TrailingSpaces(s) <= |s| - 1 - k
  {
    if IsSpace(s[|s| - 1]) {
      TrailingSpacesStop(s[..|s| - 1], k);
    }
  }

  /** `strip()` keeps every character that is not whitespace, at its place
      shifted by the whitespace cut from the front. */
  lemma TrimKeeps(s: string, k: nat)
    requires k < |s| && !IsSpace(s[k])
    ensures LeadingSpaces(s) <= k < LeadingSpaces(s) + |Trim(s)|
    ensures Trim(s)[k - LeadingSpaces(s)] == s[k]
  {
    var a := LeadingSpaces(s);
    LeadingSpacesStop(s, k);
    var t := s[a..];
    assert t[k - a] == s[k];
    TrailingSpacesStop(t, k - a);
    TrimShape(s);
  }

  /** How `Trim` cuts: the leading run first, then the trailing run of what is left. */
  lemma TrimShape(s: string)
    ensures var t := s[LeadingSpaces(s)..]; Trim(s) == t[..|t| - TrailingSpaces(t)]
  {
  }

  /** `strip()` is idempotent. */
  lemma TrimIdempotent(s: string)
    ensures Trim(Trim(s)) == Trim(s)
  {
    TrimOfTrimmed(Trim(s));
  }

  /** SQL `LIKE '%sub%'` read literally: `sub` occurs in `s` as a contiguous block. */
  predicate Contains(s: string, sub: string)
  {
    exists i | 0 <= i <= |s| - |sub| :: OccursAt(s, sub, i)
  }

  predicate OccursAt(s: string, sub: string, i: int)
  {
    0 <= i <= |s| - |sub| && s[i..i + |sub|] == sub
  }

  /** Inverse of `Split`: the parts glued back with the separator between them. */
  function Join(parts: seq<string>, sep: char): string
  {
    if |parts| == 0 then ""
    else if |parts| == 1 then parts[0]
    else parts[0] + [sep] + Join(parts[1..], sep)
  }

  /** Python's `s.split(sep)` for a one-character separator: the pieces of `s`
      between separators, an empty piece wherever two separators meet or one
      sits at either end. */
  function Split(s: string, sep: char): (parts: seq<string>)
    ensures |parts| >= 1
    ensures |parts| == 1 <==> sep !in s
    ensures parts[0] <= s && sep !in parts[0]
    ensures |parts[0]| < |s| ==> s[|parts[0]|] == sep
  {
    if |s| == 0 then [""]
    else
      var rest := Split(s[1..], sep);
      if s[0] == sep then [""] + rest
      else
        assert s == [s[0]] + s[1..];
        [[s[0]] + rest[0]] + rest[1..]
  }

  /** `split` gives one more part than there are separators. */
  lemma {:induction false} SplitCount(s: string, sep: char)
    ensures |Split(s, sep)| == multiset(s)[sep] + 1
  {
    if |s| > 0 {
      SplitCount(s[1..], sep);
      assert s == [s[0]] + s[1..];
      assert multiset(s) == multiset{s[0]} + multiset(s[1..]);
    }
  }

  /** No part of a split contains the separator. */
  lemma {:induction false} SplitPartsFree(s: string, sep: char)
    ensures forall k | 0 <= k < |Split(s, sep)| :: sep !in Split(s, sep)[k]
  {
    if |s| > 0 {
      SplitPartsFree(s[1..], sep);
      var rest := Split(s[1..], sep);
      var parts := Split(s, sep);
      forall k | 0 <= k < |parts| ensures sep !in parts[k] {
        if k > 0 {
          assert parts[k] == rest[k - 1] || parts[k] == rest[k];
        }
      }
    }
  }

  /** Gluing the parts of a split back together gives the original string. */
  lemma {:induction false} JoinSplit(s: string, sep: char)
    ensures Join(Split(s, sep), sep) == s
  {
    if |s| > 0 {
      JoinSplit(s[1..], sep);
      JoinCons(s[0], Split(s[1..], sep), sep);
      assert s == [s[0]] + s[1..];
    }
  }

  /** Gluing after one more leading character: a separator starts a new empty
      first part, any other character joins the first part. */
  lemma JoinCons(c: char, rest: seq<string>, sep: char)
    requires |rest| >= 1
    ensures Join([""] + rest, sep) == [sep] + Join(rest, sep)
    ensures Join([[c] + rest[0]] + rest[1..], sep) == [c] + Join(rest, sep)
  {
    assert ([""] + rest)[1..] == rest;
    var parts := [[c] + rest[0]] + rest[1..];
    assert parts[1..] == rest[1..];
  }

  /** `Split` undoes `Join` when no part contains the separator. */
  lemma {:induction false} SplitJoin(parts: seq<string>, sep: char)
    requires |parts| >= 1
    requires forall k | 0 <= k < |parts| :: sep !in parts[k]
    ensures Split(Join(parts, sep), sep) == parts
  {
    if |parts| == 1 {
      SplitWithoutSeparator(parts[0], sep);
    } else {
      SplitJoin(parts[1..], sep);
      SplitAround(parts[0], Join(parts[1..], sep), sep);
    }
  }

  /** A string without the separator splits into itself alone. */
  lemma {:induction false} SplitWithoutSeparator(s: string, sep: char)
    requires sep !in s
    ensures Split(s, sep) == [s]
  {
    if |s| > 0 {
      SplitWithoutSeparator(s[1..], sep);
      assert [s[0]] + s[1..] == s;
    }
  }

  /** Splitting `a + sep + b`, where `a` has no separator, gives `a` followed by the parts of `b`. */
  lemma {:induction false} SplitAround(a: string, b: string, sep: char)
    requires sep !in a
    ensures Split(a + [sep] + b, sep) == [a] + Split(b, sep)
  {
    var s := a + [sep] + b;
    if |a| == 0 {
      assert s[0] == sep;
      assert s[1..] == b;
    } else {
      assert s[0] == a[0] != sep;
      assert s[1..] == a[1..] + [sep] + b;
      SplitAround(a[1..], b, sep);
      var rest := Split(s[1..], sep);
      assert rest == [a[1..]] + Split(b, sep);
      assert [a[0]] + a[1..] == a;
    }
  }

  predicate IsDigit(c: char)
  {
    '0' <= c <= '9'
  }

  predicate AllDigits(s: string)
  {
    forall k | 0 <= k < |s| :: IsDigit(s[k])
  }

  function DigitValue(c: char): nat
    requires IsDigit(c)
  {
    (c as int) - ('0' as int)
  }

  function DigitChar(d: nat): (c: char)
    requires d < 10
    ensures IsDigit(c) && DigitValue(c) == d
  {
    (('0' as int) + d) as char
  }

  /** The number a non-empty run of ASCII digits spells in base 10. */
  function DecimalValue(ds: string): nat
    requires AllDigits(ds)
  {
    if |ds| == 0 then 0 else DecimalValue(ds[..|ds| - 1]) * 10 + DigitValue(ds[|ds| - 1])
  }

  /** Python's `str(n)` for a natural number: canonical decimal digits (no
      leading zero) that read back as `n`. */
  function NatToString(n: nat): (s: string)
    ensures 1 <= |s| && AllDigits(s)
    ensures s[0] == '0' ==> s == "0"
    ensures DecimalValue(s) == n
  {
    if n < 10 then [DigitChar(n)]
    else
      var s := NatToString(n / 10) + [DigitChar(n % 10)];
      assert s[..|s| - 1] == NatToString(n / 10);
      s
  }

  /** Python's `str(i)` for any integer: a numeral whose value is `i`, with a
      minus exactly when `i` is negative, never a plus, and no leading zero. */
  function IntToString(i: int): (s: string)
    ensures IsNumeral(s) && NumeralValue(s) == i
    ensures s[0] == '-' <==> i < 0
    ensures s[0] != '+'
    ensures var d := if i < 0 then s[1..] else s; d[0] == '0' ==> d == "0"
  {
    if i < 0 then
      var s := "-" + NatToString(-i);
      assert s[1..] == NatToString(-i);
      s
    else NatToString(i)
  }

  /** Python's `str.lower()` on ASCII letters; every other character is kept. */
  function AsciiLower(s: string): (r: string)
    ensures |r| == |s|
    ensures forall k | 0 <= k < |s| :: r[k] == if 'A' <= s[k] <= 'Z' then (s[k] as int + 32) as char else s[k]
  {
    if |s| == 0 then []
    else [if 'A' <= s[0] <= 'Z' then (s[0] as int + 32) as char else s[0]] + AsciiLower(s[1..])
  }

  /** The whitespace `int()` skips around a number. It copies ASCII text as it
      is and then skips only tab, line feed, vertical tab, form feed, carriage
      return and space; every non-ASCII `isspace()` character becomes a space
      first. So the separators U+001C to U+001F, which `strip()` removes, stop
      `int()`. */
  predicate IsIntSpace(c: char)
  {
    IsSpace(c) && !(0x1C <= c as int <= 0x1F)
  }

  /** An optional `+` or `-` followed by one or more ASCII digits. */
  predicate IsNumeral(t: string)
  {
    if |t| > 0 && (t[0] == '+' || t[0] == '-') then |t| > 1 && AllDigits(t[1..])
    else |t| > 0 && AllDigits(t)
  }

  /** CPython's default cap (`sys.int_info.default_max_str_digits`) on the
      number of digits `int()` reads from text and `str()` writes; beyond it
      both raise `ValueError`. */
  const MaxStrDigits: nat := 4300

  /** How many digits a numeral has: its length without the sign. */
  function NumeralDigits(t: string): nat
    requires IsNumeral(t)
  {
    if t[0] == '+' || t[0] == '-' then |t| - 1 else |t|
  }

  /** The integer a numeral spells. */
  function NumeralValue(t: string): int
    requires IsNumeral(t)
  {
    if t[0] == '-' then -(DecimalValue(t[1..]) as int)
    else if t[0] == '+' then DecimalValue(t[1..])
    else DecimalValue(t)
  }

  /** `text` is a numeral at `text[i..j]` with only `int()` whitespace around it. */
  ghost predicate NumeralBetween(text: string, i: int, j: int)
  {
    && 0 <= i <= j <= |text|
    && (forall k | 0 <= k < i :: IsIntSpace(text[k]))
    && (forall k | j <= k < |text| :: IsIntSpace(text[k]))
    && IsNumeral(text[i..j])
  }

  /** `text` is a numeral of at most `MaxStrDigits` digits at `text[i..j]`,
      with only `int()` whitespace around it. */
  ghost predicate IntLiteralAt(text: string, i: int, j: int)
  {
    NumeralBetween(text, i, j) && NumeralDigits(text[i..j]) <= MaxStrDigits
  }

  /** Number of `int()` whitespace characters at the front of `s`. */
  function LeadingIntSpaces(s: string): (n: nat)
    ensures n <= |s|
    ensures forall k | 0 <= k < n :: IsIntSpace(s[k])
    ensures n < |s| ==> !IsIntSpace(s[n])
  {
    if |s| > 0 && IsIntSpace(s[0]) then 1 + LeadingIntSpaces(s[1..]) else 0
  }

  /** Number of `int()` whitespace characters at the back of `s`. */
  function TrailingIntSpaces(s: string): (n: nat)
    ensures n <= |s|
    ensures forall k | |s| - n <= k < |s| :: IsIntSpace(s[k])
    ensures n < |s| ==> !IsIntSpace(s[|s| - n - 1])
  {
    if |s| > 0 && IsIntSpace(s[|s| - 1]) then 1 + TrailingIntSpaces(s[..|s| - 1]) else 0
  }

  /** Python's `int(text)` in base 10 over ASCII digits: the text is accepted
      exactly when it is a numeral of at most `MaxStrDigits` digits with
      `int()` whitespace around it, and then it reads as that numeral's value;
      anything else is a `ValueError`, here `None`. */
  function ParseInt(text: string): (r: Option<int>)
    ensures r.Some? <==> exists i, j :: IntLiteralAt(text, i, j)
    ensures forall i, j | IntLiteralAt(text, i, j) :: r == Some(NumeralValue(text[i..j]))
  {
    var a := LeadingIntSpaces(text);
    var e := |text| - TrailingIntSpaces(text);
    if a < e && IsNumeral(text[a..e]) && NumeralDigits(text[a..e]) <= MaxStrDigits then
      assert IntLiteralAt(text, a, e);
      IntLiteralUnique(text, a, e);
      Some(NumeralValue(text[a..e]))
    else
      IntLiteralUnique(text, a, e);
      None
  }

  /** A numeral starts with a sign or a digit and ends with a digit, none of
      which `int()` skips as whitespace. */
  lemma NumeralEnds(t: string)
    requires IsNumeral(t)
    ensures |t| > 0 && !IsIntSpace(t[0]) && !IsIntSpace(t[|t| - 1])
  {
    if t[0] == '+' || t[0] == '-' {
      assert t[|t| - 1] == t[1..][|t| - 2];
    }
  }

  /** A numeral readable by `int()` starts right after the leading whitespace
      and ends right before the trailing whitespace. */
  lemma IntLiteralAtIs(text: string, i: int, j: int)
    requires NumeralBetween(text, i, j)
    ensures i == LeadingIntSpaces(text) && j == |text| - TrailingIntSpaces(text)
  {
    NumeralEnds(text[i..j]);
    NumeralStartIs(text, i, j);
    NumeralEndIs(text, i, j);
  }

  lemma NumeralStartIs(text: string, i: int, j: int)
    requires NumeralBetween(text, i, j)
    requires i < j && !IsIntSpace(text[i..j][0])
    ensures i == LeadingIntSpaces(text)
  {
    assert !IsIntSpace(text[i]) by { assert text[i..j][0] == text[i]; }
  }

  lemma NumeralEndIs(text: string, i: int, j: int)
    requires NumeralBetween(text, i, j)
    requires i < j && !IsIntSpace(text[i..j][j - i - 1])
    ensures j == |text| - TrailingIntSpaces(text)
  {
    assert !IsIntSpace(text[j - 1]) by { assert text[i..j][j - i - 1] == text[j - 1]; }
  }

  /** Where a numeral sits in `int()`-readable text is fixed: it starts after
      the leading whitespace and ends before the trailing whitespace. */
  lemma IntLiteralUnique(text: string, a: nat, e: int)
    requires a == LeadingIntSpaces(text) && e == |text| - TrailingIntSpaces(text)
    ensures forall i, j | IntLiteralAt(text, i, j) :: i == a && j == e
  {
    forall i, j | IntLiteralAt(text, i, j) ensures i == a && j == e {
      IntLiteralAtIs(text, i, j);
    }
  }

  /** Text holding a character that is neither `int()` whitespace, a sign nor
      a digit is not an integer. */
  lemma NonDigitRefused(a: string, b: string, c: char)
    requires !IsDigit(c) && !IsIntSpace(c) && c != '+' && c != '-'
    ensures ParseInt(a + [c] + b) == None
  {
    var t := a + [c] + b;
    assert t[|a|] == c;
    forall i, j | 0 <= i <= j <= |t| ensures !IntLiteralAt(t, i, j) {
      if i <= |a| < j {
        var n := t[i..j];
        assert n[|a| - i] == c;
        if |a| > i {
          assert n[1..][|a| - i - 1] == c;
        }
      }
    }
  }

  /** More than `MaxStrDigits` digits are refused, whatever their value. */
  lemma TooManyDigitsRefused(t: string)
    requires AllDigits(t) && |t| > MaxStrDigits
    ensures ParseInt(t) == None
  {
    assert IsDigit(t[0]) && IsDigit(t[|t| - 1]);
    assert LeadingIntSpaces(t) == 0 && TrailingIntSpaces(t) == 0;
    assert t[0..|t|] == t;
  }

  /** Text without a minus sign never reads as a negative number. */
  lemma DashFreeNotNegative(t: string)
    requires '-' !in t && ParseInt(t).Some?
    ensures ParseInt(t).value >= 0
  {
    var i, j :| IntLiteralAt(t, i, j);
    assert t[i..j][0] == t[i] && t[i] in t;
  }

  /** The magnitude of an integer, the part `str()` writes as digits. */
  function Abs(i: int): nat
  {
    if i < 0 then -i else i
  }

  /** `int(str(i)) == i`: the printed form of every integer `str()` can print
      (at most `MaxStrDigits` digits) parses back to it. */
  lemma ParseIntRoundTrip(i: int)
    requires |NatToString(Abs(i))| <= MaxStrDigits
    ensures ParseInt(IntToString(i)) == Some(i)
  {
    var s := IntToString(i);
    if i < 0 {
      assert s[1..] == NatToString(-i);
    }
    assert s[0..|s|] == s;
    assert IntLiteralAt(s, 0, |s|);
  }

  /** A digit string never contains the range separator `-`. */
  lemma NatToStringHasNoDash(n: nat)
    ensures '-' !in NatToString(n)
  {
    var s := NatToString(n);
    forall k | 0 <= k < |s| ensures s[k] != '-' {
      assert IsDigit(s[k]);
    }
  }
}
